=== FILE: README.md ===
# rirs: whois dump parser and JSON store, modelled in Dafny

`rirs` reads the plain-text database dumps published by Regional Internet Registries.
In a dump, objects are blocks of `key: value` lines separated by blank lines. The tool
turns each block of a known class into a typed record and streams the records into one
JSON file per collection. This project models three parts of it as pure functions and
proves what they do:

- **Block reader** (`parseFromReader`, module `Tokenizer`). It groups the scanner's lines
  into blocks and takes each block's type from its first line. It hands every block to the
  parser and stops at the first storage error.
- **Field extractor** (`parseAndSaveObject` and the eight `parse…` routines, module
  `Parser`). It dispatches on the block's type and reads the attributes as left folds over
  the lines. A single-valued key keeps its last value. `descr` (autonomous systems and
  address ranges), `address`, `nserver` and `mnt-by` collect every value in order. A
  timestamp is overwritten only by a value that parses.
- **Streaming store** (`storage`, module `Storage`). It keeps one buffered writer per
  collection. A file starts with `{`, receives one `"key": json` entry per record, and
  ends with `}` when the store is closed. A save flushes once the buffer holds more than
  5 MiB. Close visits every writer whatever failed before and returns the last error.

Supporting modules:

- `Wrappers`: `Option`/`Result` and a few sequence helpers.
- `Strings`: Go's `strings.TrimSpace` with the `unicode.IsSpace` set, a cut at the first
  colon, and UTF-8 byte length.
- `Models`: the record types of `parser/models.go`.
- `Ingest`: composes the parts into a whole run over a file system that never fails.

The following are parameters rather than definitions:

- The time parser (`time.Parse` with the layout `2006-01-02T15:04:05Z`).
- The JSON encoder (`json.Marshal`).
- The file system: whether a file can be created, whether a flush succeeds, whether a close
  succeeds.
- The order in which Go iterates over the writer map.

Two facts about the code are worth stating because a reader might expect otherwise:

- A block's type comes only from its first line: the trimmed text before that line's first
  colon, or `""` when the first line has no colon (`parser/file.go:69-74`). A later line
  with a colon does not supply a type.
- Entries are written with no separator between them (`storage.go:102`), so a collection
  with two or more records is not valid JSON. `Storage.Entry` carries no separator, and
  `Ingest.DumpFiles` shows the file to be exactly the opening bracket, the entries back to
  back, and the closing bracket.

## Model

| member | source | states |
|---|---|---|
| Strings.TrimSpace | parser/parser.go:94-95 | the result has no white space at either end, is no longer than the input, and is empty exactly when the input is all white space |
| Strings.TrimSpaceExact | parser/parser.go:94-95 | trimming removes exactly the white space around a core that neither starts nor ends with white space |
| Strings.TrimSpaceIdempotent | parser/parser.go:94-95 | trimming twice is trimming once |
| Strings.Cut | parser/parser.go:89-92 | no result exactly when there is no colon; otherwise the key holds no colon, and key, colon and value rebuild the line |
| Parser.Field | parser/parser.go:89-95 | a line yields a key and a value exactly when it holds a colon; they are the trimmed text before and after its first colon |
| Parser.FoldKeeps | parser/parser.go:122-126 | a field that no key touches, such as the embedded base object, keeps its initial value |
| Parser.ParseBase | parser/parser.go:83-120 | every base attribute is a function of the block alone: last `Key`, `source`, `admin-c` and `tech-c`; last parsable `created` and `last-modified`, else the zero time; all `mnt-by` values in order |
| Parser.ParseASN | parser/parser.go:122-154 | an autonomous-system record keeps the base and holds the last `aut-num`, `as-name`, `org`, `status` and `notify`, and every `descr` in order |
| Parser.ParseInetNum | parser/parser.go:156-188 | an address-range record keeps the base and holds the last `inetnum`, `netname`, `country`, `status` and `org`, and every `descr` in order |
| Parser.ParseRoute | parser/parser.go:190-215 | a route record keeps the base and holds the last `route`, `descr`, `origin` and `org` |
| Parser.ParseRoute6 | parser/parser.go:217-242 | an IPv6 route record keeps the base and holds the last `route6`, `descr`, `origin` and `org` |
| Parser.ParsePerson | parser/parser.go:244-274 | a person record keeps the base and holds the last `person`, `phone`, `e-mail` and `nic-hdl`, and every `address` in order |
| Parser.ParseOrganization | parser/parser.go:276-308 | an organisation record keeps the base and holds the last `organisation`, `org-name`, `org-type`, `e-mail` and `abuse-c`, and every `address` in order |
| Parser.ParseDomain | parser/parser.go:310-338 | a domain record keeps the base and holds the last `domain`, `descr` and `zone-c`, and every `nserver` in order |
| Parser.ParseObject | parser/parser.go:32-81 | a block gives a record exactly when its type is one of the seven known classes; the record is of that class and carries the block's base object |
| Parser.Build | parser/parser.go:35-78 | the `switch`: a record exactly for the seven known types, of the type asked for and around the given base object (its own fields: `Parser.ParseObjectRecord`) |
| Parser.ParseObjectRecord | parser/parser.go:32-78 | the record of a block of known type is exactly that type's parse of the block's lines around the block's base object |
| Parser.ParseAndSave | parser/parser.go:32-81 | an unknown type leaves the store alone and reports no error; a known type makes exactly one storage call with the block's record and returns that call's outcome |
| Parser.SaveAllAppend | parser/file.go:58-63 | saving two runs of records is saving the first and, only if it reported no error, then the second |
| Parser.SaveAll | parser/parser.go:32-81 | no records make no storage call and report no error; one record is exactly one storage call, whose outcome is returned |
| Tokenizer.HintOf | parser/file.go:69-74 | a first line with a colon gives the trimmed text before its first colon; one without gives the empty type |
| Tokenizer.Step | parser/file.go:50-77 | an empty line with no pending block changes nothing; an empty line after a block closes it and resets the type; a non-empty line is appended; the first line of a block sets the type when it holds a colon and leaves it unchanged otherwise; later lines never change it |
| Tokenizer.Finish | parser/file.go:79-84 | after the last line the pending block, if any, is closed after all the others |
| Tokenizer.RunLength | parser/file.go:53-76 | the run at the front of the input is non-empty line by line and ends at an empty line or at the end of input |
| Tokenizer.LoopRest | parser/file.go:50-83 | from any state the loop reaches (no pending block means the empty type), the rest of the loop closes the pending block with the run that continues it and then yields the reference split of the remaining lines |
| Tokenizer.Blocks | parser/file.go:42-83 | the blocks handed to the parser are exactly the maximal runs of non-empty lines, in order, each typed by its first line |
| Tokenizer.BlocksWellFormed | parser/file.go:53-76 | every block has at least one line, no empty line, and the type its first line gives |
| Tokenizer.BlocksKeepLines | parser/file.go:53-76 | the blocks' lines, concatenated, are the input without its empty lines: nothing is lost, reordered or invented |
| Tokenizer.BlockCount | parser/file.go:53-65 | there is one block per maximal run of non-empty lines, however many empty lines separate them |
| Tokenizer.LeadingEmptyLinesSkipped | parser/file.go:53-56 | empty lines before the first object change nothing |
| Tokenizer.LastBlockFlushed | parser/file.go:78-83 | when the input ends without an empty line, the last block is still handed over and ends with the last line |
| Tokenizer.RecordOf | parser/file.go:58-61 | a block yields one record when its type is known and none otherwise |
| Tokenizer.Records | parser/file.go:58-83 | one record per block of known type, so a block of unknown type yields none |
| Tokenizer.SaveOneBlock | parser/file.go:58-63 | handing one block to the parser is saving the records it yields |
| Tokenizer.Deliver | parser/file.go:58-84 | blocks none of whose types is known make no storage call and report no error |
| Tokenizer.DeliverSavesRecords | parser/file.go:58-83 | handing over the blocks is saving their records in order, stopping at the first storage error |
| Tokenizer.ParseFromReader | parser/file.go:42-86 | the result is the scanner's outcome or a wrapped storage error; a scanner error never turns into success, though a storage error on the last block replaces it; input without a block of known type returns the scanner's outcome and leaves the store alone |
| Tokenizer.ParseFromReaderSaves | parser/file.go:42-86 | reading saves the records of the maximal runs in order; a storage error ends reading and is returned wrapped; otherwise the scanner's own outcome is returned |
| Storage.InitWriters | storage.go:44-61 | all writers exist and hold the opening bracket exactly when every file could be created; otherwise the error names the first collection, in order, whose file could not be created |
| Storage.NewStorage | storage.go:26-42 | a new store has a healthy writer holding `{` for each of the seven collections, or fails naming a collection whose file could not be created |
| Storage.Write | storage.go:102-104 | a write appends to the buffer unless an earlier flush failed, in which case nothing changes |
| Storage.Flush | storage.go:106-110 | a flush moves the buffer to the file, or leaves everything in place and marks the writer failed |
| Storage.Entry | storage.go:102 | an entry is the quoted key, `": "` and the JSON, with nothing after it |
| Storage.EntryInjective | storage.go:102 | a key without a quote can be read back: two such entries are equal only for the same key and JSON |
| Storage.SaveObject | storage.go:91-113 | a missing writer, an encoding failure or an earlier flush failure is reported and changes nothing; otherwise exactly the entry is appended to that collection and no other; the buffer is left alone while it holds at most 5 MiB and is flushed once it holds more; a successful save leaves at most 5 MiB buffered |
| Storage.CollectionOf | storage.go:63-89 | every record is routed to one of the seven collections |
| Storage.KeyOfBlock | storage.go:63-89 | the key of a block's entry is the last value of its class's keying attribute: `aut-num`, `inetnum`, `route`, `route6`, `nic-hdl`, `organisation` or `domain` |
| Storage.CollectionsByKind | storage.go:63-89 | two records go to the same collection exactly when they are of the same class |
| Storage.EveryCollectionUsed | storage.go:63-89 | every collection receives some class of record |
| Storage.Save | storage.go:63-113 | a successful save appends the record's entry to its own collection and changes no other |
| Storage.SaveAllContents | storage.go:91-113 | after saves that report no error, each collection holds what it held followed by the entries of its records, in order |
| Storage.SaveAllSucceeds | storage.go:91-113 | on a healthy store, over a file system that takes every write, saving encodable records never fails |
| Storage.CloseError | storage.go:119-137 | closing one writer fails exactly when the writer had failed, the final flush fails or the file close fails |
| Storage.Finished | storage.go:119-130 | a healthy writer gains the closing bracket and, when the flush succeeds, has everything on disk; a failed writer is left alone |
| Storage.LastError | storage.go:115-140 | no error exactly when no writer fails to close; otherwise the error of the last writer, in iteration order, that failed |
| Storage.CloseOne | storage.go:119-137 | one iteration: the writer is finished, its file is closed unless the writer had failed, and its failure, if any, replaces the error so far |
| Storage.Close | storage.go:115-140 | Close visits every writer, leaves open exactly the files of writers that had failed before, and returns the last failure |
| Storage.CloseSucceeds | storage.go:115-140 | Close reports no error exactly when every writer was healthy and its final flush and file close succeeded |
| Ingest.ReadIntoFreshStore | parser/file.go:42-86 | reading a dump into a new store over a reliable file system reports no error and leaves each collection holding `{` and then its records' entries in block order |
| Ingest.SavedIntoHealthy | storage.go:91-113 | on healthy writers over a file system that takes every write, saving encodable records reports no error and appends each collection's entries in order |
| Ingest.DumpFiles | storage.go:115-140 | after reading and closing, no error is reported, no file is left open, and each collection's file is exactly `{`, its entries back to back, and `}` |
| Ingest.ClosedHealthy | storage.go:115-140 | closing healthy writers over a file system where nothing fails reports no error, leaves no file open and puts each file's content and `}` on disk |

## Left out

- The byte stream and `bufio.Scanner`. The reader is given the lines the scanner produced and the scanner's final error as a parameter. This covers the 5 MiB line limit (`parser/file.go:47-49`), carriage-return stripping and read failures.
- `ParseFile` and `ParseGZFile`: opening a file or a gzip stream is I/O.
- `time.Parse`: a parameter of type `string -> Option<Time>`. The layout `2006-01-02T15:04:05Z` is not interpreted.
- `json.Marshal`: a parameter of type `Record -> Option<string>`. The JSON text of a record is not modelled.
- The file system: an oracle answering whether a file is created, whether a flush of a given text succeeds and whether a close succeeds. Partial writes are not modelled; a failed flush writes nothing.
- `Storage.Write`: models a buffer without a capacity. `bufio.Writer` of 5 MiB flushes on its own, inside `WriteString`, when a write does not fit, so the check at `storage.go:106` never sees more than 5 MiB. The model instead flushes only at that check and at Close. When every flush succeeds, the text that reaches the file, in order, is the same either way; the chunks handed to the file system differ.
- `Storage.SaveObject`: a failure of bufio's own flush inside `WriteString` (`storage.go:102`) is reported in Go as a failed write, with the part of the entry that did not fit still buffered. The model has no such flush, so it neither reports that error nor keeps a partial entry.
- `Storage.CloseError`: in Go, writing the closing bracket into a buffer with fewer than 3 bytes free makes bufio flush inside `WriteString`; if that flush fails, Close records the bracket error and skips the file's close (`storage.go:121-123`). The model writes the bracket without that flush, so this case is reported as a failed final flush instead.
- `Storage.Finished`: for the same reason, a healthy writer whose bracket write fails inside bufio keeps only part of `\n}\n` in Go; the model gives it the whole bracket and reports the failure at the final flush.
- `Storage.CloseOne`: in that case Go skips the file's close with `continue` (`storage.go:121-123`) and reports the bracket error; the model closes the file and reports a failed final flush.
- `Storage.Close`: for the same reason, a healthy writer whose bracket write fails in that way has its file left open in Go, but is counted as closed by the model; "open exactly when the writer had failed before" holds only for the model's buffer.
- `Storage.NewStorage`: writing `{` into a fresh 5 MiB buffer cannot fail, so that error path (`storage.go:53-56`) is absent. Files created before a failure stay open; the model does not track them.
- `Storage.Close`: Go's map iteration order is a parameter, any enumeration of the collections.
- `Storage.EntryInjective`: keys are formatted with `%s` and not escaped, so a key holding a quote can give the same entry as another key; the lemma is stated for quote-free keys only.
- Error messages: errors are a datatype naming the failing step and collection, not formatted text.
- Strings are sequences of Unicode characters. Go's byte strings with invalid UTF-8 are not modelled. Buffer sizes are counted in UTF-8 bytes.
- `fs/`, `sources.go`, `rir.go`, `sync.go`, `utils.go`, `cmd/main.go` (downloading, folders, the command line) and the unused `RipeDatabase` type are outside this model.

=== FILE: ingest.dfy ===
/**
 * Reading one database dump into a fresh store and closing it, when nothing on the way fails:
 * each collection file is the opening bracket, the entries of that collection's records in
 * the order of their blocks, and the closing bracket.
 */
module Ingest {
  import opened Wrappers
  import opened Models
  import opened Parser
  import opened Tokenizer
  import opened Storage

  /** A file system on which every create, flush and close succeeds. */
  ghost predicate Reliable(disk: Disk) {
    && (forall n :: disk.creates(n))
    && (forall n, text :: disk.accepts(n, text))
    && (forall n :: disk.closes(n))
  }

  /** Saving encodable records into healthy writers over a reliable file system: no error, and each collection gains its entries. */
  lemma SavedIntoHealthy(rs: seq<Record>, st: Store, marshal: Record -> Option<string>, disk: Disk)
    requires Reliable(disk)
    requires forall r: Record :: marshal(r).Some?
    requires st.Keys == CollectionNames
    requires forall n | n in st :: !st[n].failed
    ensures var s := SaveAll(rs, st, Saver(marshal, disk));
      && s.err.None?
      && s.sink.Keys == st.Keys
      && (forall c | c in st :: !s.sink[c].failed)
      && (forall c | c in st :: Content(s.sink[c]) == Content(st[c]) + Entries(rs, c, marshal))
  {
    SaveAllSucceeds(rs, st, marshal, disk);
    SaveAllContents(rs, st, marshal, disk);
  }

  /** Reading the dump into a fresh store: every collection holds its records' entries after the opening bracket. */
  lemma ReadIntoFreshStore(lines: seq<string>, disk: Disk, marshal: Record -> Option<string>, parseTime: TimeParser)
    requires Reliable(disk)
    requires forall r: Record :: marshal(r).Some?
    ensures NewStorage(disk).Success?
    ensures var st := NewStorage(disk).value;
      var s := ParseFromReader(lines, None, st, Saver(marshal, disk), parseTime);
      && s.err.None?
      && s.sink.Keys == st.Keys
      && (forall c | c in st :: !s.sink[c].failed)
      && (forall c | c in st :: Content(s.sink[c]) == Opening + Entries(Records(Split(lines), parseTime), c, marshal))
  {
    var st := NewStorage(disk).value;
    var rs := Records(Split(lines), parseTime);
    ParseFromReaderSaves(lines, None, st, Saver(marshal, disk), parseTime);
    SavedIntoHealthy(rs, st, marshal, disk);
  }

  /** Closing healthy writers over a reliable file system: no error, no open file, and every file complete on disk. */
  lemma ClosedHealthy(st: Store, order: seq<string>, disk: Disk)
    requires Reliable(disk)
    requires Enumerates(st.Keys, order)
    requires forall n | n in st :: !st[n].failed
    ensures var r := Close(st, order, disk);
      && r.err.None?
      && r.open == {}
      && forall c | c in st :: r.store[c].buffered == "" && r.store[c].flushed == Content(st[c]) + Closing
  {
    CloseSucceeds(st, order, disk);
  }

  /**
   * The whole run: after reading the dump and closing the store, no error is reported, no file
   * is left open, and each collection's file holds exactly `{`, its entries and `}`.
   */
  lemma DumpFiles(lines: seq<string>, disk: Disk, marshal: Record -> Option<string>, parseTime: TimeParser, order: seq<string>)
    requires Reliable(disk)
    requires forall r: Record :: marshal(r).Some?
    requires Enumerates(CollectionNames, order)
    ensures NewStorage(disk).Success?
    ensures var st := NewStorage(disk).value;
      var s := ParseFromReader(lines, None, st, Saver(marshal, disk), parseTime);
      && s.err.None?
      && s.sink.Keys == CollectionNames
      && var r := Close(s.sink, order, disk);
      && r.err.None?
      && r.open == {}
      && forall c | c in Collections ::
        && r.store[c].buffered == ""
        && r.store[c].flushed == Opening + Entries(Records(Split(lines), parseTime), c, marshal) + Closing
  {
    ReadIntoFreshStore(lines, disk, marshal, parseTime);
    var st := NewStorage(disk).value;
    var s := ParseFromReader(lines, None, st, Saver(marshal, disk), parseTime);
    ClosedHealthy(s.sink, order, disk);
  }
}

=== FILE: models.dfy ===
/** The records the parser builds, one datatype per Go struct, and the errors of the core. */
module Models {

  /** An instant as Go's `time.Time` presents it in UTC. */
  datatype Time = Time(year: int, month: int, day: int, hour: int, minute: int, second: int, nanosecond: int)

  /** The zero `time.Time`, January 1 of year 1, 00:00:00 UTC: what an unparsed timestamp holds. */
  const ZeroTime: Time := Time(1, 1, 1, 0, 0, 0, 0)

  /** Attributes common to every RPSL object. */
  datatype BaseObject = BaseObject(
    key: string,
    created: Time,
    lastModified: Time,
    source: string,
    adminC: string,
    techC: string,
    mntBy: seq<string>)

  /** An `aut-num` object. */
  datatype ASN = ASN(
    base: BaseObject,
    asNumber: string,
    asName: string,
    descr: seq<string>,
    org: string,
    status: string,
    notify: string)

  /** An `inetnum` object: an IPv4 address range. */
  datatype InetNum = InetNum(
    base: BaseObject,
    ipRange: string,
    netName: string,
    descr: seq<string>,
    country: string,
    status: string,
    org: string)

  /** A `route` object. */
  datatype Route = Route(base: BaseObject, prefix: string, descr: string, origin: string, org: string)

  /** A `route6` object. */
  datatype Route6 = Route6(base: BaseObject, prefix: string, descr: string, origin: string, org: string)

  /** A `person` object. */
  datatype Person = Person(
    base: BaseObject,
    name: string,
    address: seq<string>,
    phone: string,
    email: string,
    nicHdl: string)

  /** An `organisation` object. */
  datatype Organization = Organization(
    base: BaseObject,
    name: string,
    orgType: string,
    address: seq<string>,
    email: string,
    abuseC: string,
    orgId: string)

  /** A `domain` object. */
  datatype Domain = Domain(
    base: BaseObject,
    domainName: string,
    descr: string,
    nameservers: seq<string>,
    zoneC: string)

  /** One parsed object: the argument of exactly one of the seven `Save` calls of the storage interface. */
  datatype Record =
    | AsnRecord(asn: ASN)
    | InetNumRecord(inetNum: InetNum)
    | RouteRecord(route: Route)
    | Route6Record(route6: Route6)
    | PersonRecord(person: Person)
    | OrganizationRecord(organization: Organization)
    | DomainRecord(domain: Domain)

  /** The RPSL class names the parser recognises, one per record kind. */
  const Classes: set<string> := {"aut-num", "inetnum", "route", "route6", "person", "organisation", "domain"}

  /** The RPSL class a record was parsed from. */
  function ClassOf(r: Record): (c: string)
    ensures c in Classes
  {
    match r
    case AsnRecord(_) => "aut-num"
    case InetNumRecord(_) => "inetnum"
    case RouteRecord(_) => "route"
    case Route6Record(_) => "route6"
    case PersonRecord(_) => "person"
    case OrganizationRecord(_) => "organisation"
    case DomainRecord(_) => "domain"
  }

  function BaseOf(r: Record): BaseObject {
    match r
    case AsnRecord(x) => x.base
    case InetNumRecord(x) => x.base
    case RouteRecord(x) => x.base
    case Route6Record(x) => x.base
    case PersonRecord(x) => x.base
    case OrganizationRecord(x) => x.base
    case DomainRecord(x) => x.base
  }

  /** The errors the core reports; `ObjectFailed` is the wrapping done by the block reader. */
  datatype Error =
    | CreateFailed(collection: string)
    | NotInitialized(collection: string)
    | MarshalFailed
    | WriteFailed(collection: string)
    | FlushFailed(collection: string)
    | BracketFailed(collection: string)
    | CloseFlushFailed(collection: string)
    | FileCloseFailed(collection: string)
    | ObjectFailed(cause: Error)
}

=== FILE: parser.dfy ===
/**
 * The field extractor: how one block of `key: value` lines becomes a typed record, and
 * the storage interface the parser hands records to.
 */
module Parser {
  import opened Wrappers
  import opened Strings
  import opened Models

  /** The outcome of one storage call: the sink's next state and the error it reported, if any. */
  datatype Saved<S> = Saved(sink: S, err: Option<Error>)

  /**
   * The storage interface as a transition on the sink's state. The variant of the record
   * says which of the seven `Save` methods is called.
   */
  type Sink<!S> = (S, Record) -> Saved<S>

  /** Timestamp parsing under the fixed layout `2006-01-02T15:04:05Z`; `None` when it fails. */
  type TimeParser = string -> Option<Time>

  /** Key and value of a line: both sides of its first colon, trimmed; `None` without a colon. */
  function Field(line: string): (r: Option<(string, string)>)
    ensures r.None? <==> ':' !in line
    ensures r.Some? ==> ':' !in r.value.0
    ensures r.Some? ==> exists i | 0 <= i < |line| ::
      && line[i] == ':'
      && ':' !in line[..i]
      && r.value == (TrimSpace(line[..i]), TrimSpace(line[i + 1..]))
  {
    match Cut(line, ':')
    case None => None
    case Some(parts) =>
      assert ':' !in TrimSpace(parts.0) by {
        assert forall c | c in TrimSpace(parts.0) :: c in parts.0;
      }
      var i := |parts.0|;
      assert line[i] == ':' && line[..i] == parts.0 && line[i + 1..] == parts.1;
      Some((TrimSpace(parts.0), TrimSpace(parts.1)))
  }

  /** The value a single line contributes to the values of `key`. */
  function Here(line: string, key: string): seq<string> {
    match Field(line)
    case Some(kv) => if kv.0 == key then [kv.1] else []
    case None => []
  }

  /** The values of the lines whose key is `key`, in input order. */
  function Values(lines: seq<string>, key: string): (vs: seq<string>)
    ensures |vs| <= |lines|
    decreases |lines|
  {
    if |lines| == 0 then [] else Here(lines[0], key) + Values(lines[1..], key)
  }

  /** The value of the last line with key `key`, or `""` when there is none. */
  function Last(lines: seq<string>, key: string): string {
    LastOr(Values(lines, key), "")
  }

  /** The parse of the last value of key `key` that parses, or the zero time when none does. */
  function LastTime(lines: seq<string>, key: string, parseTime: TimeParser): Time {
    LastOr(Collect(Values(lines, key), parseTime), ZeroTime)
  }

  /**
   * The loop shared by every extraction routine: for each line with a colon, in order,
   * apply the routine's `switch` to the trimmed key and value; lines without a colon are skipped.
   */
  function Fold<T>(acc: T, lines: seq<string>, apply: (T, string, string) -> T): T
    decreases |lines|
  {
    if |lines| == 0 then acc else Fold(Next(acc, lines[0], apply), lines[1..], apply)
  }

  /** One iteration of the loop. */
  function Next<T>(acc: T, line: string, apply: (T, string, string) -> T): T {
    match Field(line)
    case None => acc
    case Some(kv) => apply(acc, kv.0, kv.1)
  }

  function Keep(v: string): Option<string> {
    Some(v)
  }

  lemma {:induction false} CollectKeep(vs: seq<string>)
    ensures Collect(vs, Keep) == vs
    decreases |vs|
  {
    if |vs| > 0 {
      CollectKeep(vs[1..]);
    }
  }

  /** A field that a key overwrites whenever `convert` accepts the value holds the last accepted value. */
  lemma {:induction false} FoldLastWins<T, U>(
    acc: T, lines: seq<string>, apply: (T, string, string) -> T,
    get: T -> U, key: string, convert: string -> Option<U>)
    requires forall a, k, v :: get(apply(a, k, v)) == (if k == key && convert(v).Some? then convert(v).value else get(a))
    ensures get(Fold(acc, lines, apply)) == LastOr(Collect(Values(lines, key), convert), get(acc))
    decreases |lines|
  {
    if |lines| > 0 {
      var next := Next(acc, lines[0], apply);
      var here := Here(lines[0], key);
      FoldLastWins(next, lines[1..], apply, get, key, convert);
      CollectAppend(here, Values(lines[1..], key), convert);
      LastOrAppend(Collect(here, convert), Collect(Values(lines[1..], key), convert), get(acc));
      match Field(lines[0]) {
        case None =>
        case Some(kv) =>
          assert get(next) == (if kv.0 == key && convert(kv.1).Some? then convert(kv.1).value else get(acc));
      }
    }
  }

  /** A text field that a key overwrites holds the value of the last line with that key. */
  lemma FoldLastString<T>(acc: T, lines: seq<string>, apply: (T, string, string) -> T, get: T -> string, key: string)
    requires forall a, k, v :: get(apply(a, k, v)) == (if k == key then v else get(a))
    ensures get(Fold(acc, lines, apply)) == LastOr(Values(lines, key), get(acc))
  {
    FoldLastWins(acc, lines, apply, get, key, Keep);
    CollectKeep(Values(lines, key));
  }

  /** A field that a key extends collects every value of that key, in order. */
  lemma FoldAppends<T>(
    acc: T, lines: seq<string>, apply: (T, string, string) -> T, get: T -> seq<string>, key: string)
    requires forall a, k, v :: get(apply(a, k, v)) == (if k == key then get(a) + [v] else get(a))
    ensures get(Fold(acc, lines, apply)) == get(acc) + Values(lines, key)
  {
    forall a, line
      ensures get(Next(a, line, apply)) == get(a) + Here(line, key)
    {
      match Field(line) {
        case None =>
        case Some(kv) =>
          assert get(Next(a, line, apply)) == (if kv.0 == key then get(a) + [kv.1] else get(a));
      }
    }
    FoldAppendsByLine(acc, lines, apply, get, key);
  }

  lemma {:induction false} FoldAppendsByLine<T>(
    acc: T, lines: seq<string>, apply: (T, string, string) -> T, get: T -> seq<string>, key: string)
    requires forall a, line :: get(Next(a, line, apply)) == get(a) + Here(line, key)
    ensures get(Fold(acc, lines, apply)) == get(acc) + Values(lines, key)
    decreases |lines|
  {
    if |lines| > 0 {
      var next := Next(acc, lines[0], apply);
      var here := Here(lines[0], key);
      var rest := Values(lines[1..], key);
      calc {
        get(Fold(acc, lines, apply));
        get(Fold(next, lines[1..], apply));
        { FoldAppendsByLine(next, lines[1..], apply, get, key); }
        get(next) + rest;
        (get(acc) + here) + rest;
        { AppendAssoc(get(acc), here, rest); }
        get(acc) + (here + rest);
        get(acc) + Values(lines, key);
      }
    }
  }

  /** A field that no key touches keeps its initial value. */
  lemma {:induction false} FoldKeeps<T, U>(acc: T, lines: seq<string>, apply: (T, string, string) -> T, get: T -> U)
    requires forall a, k, v :: get(apply(a, k, v)) == get(a)
    ensures get(Fold(acc, lines, apply)) == get(acc)
    decreases |lines|
  {
    if |lines| > 0 {
      var next := Next(acc, lines[0], apply);
      FoldKeeps(next, lines[1..], apply, get);
    }
  }

  // ---------------------------------------------------------------- base object

  const EmptyBase: BaseObject := BaseObject("", ZeroTime, ZeroTime, "", "", "", [])

  /**
   * One case of the `switch` in `parseBaseObject`. The keys are distinct, so the switch is
   * written field by field: each field changes only for its own key.
   */
  function ApplyBase(b: BaseObject, k: string, v: string, parseTime: TimeParser): BaseObject {
    BaseObject(
      key := if k == "Key" then v else b.key,
      created := if k == "created" && parseTime(v).Some? then parseTime(v).value else b.created,
      lastModified := if k == "last-modified" && parseTime(v).Some? then parseTime(v).value else b.lastModified,
      source := if k == "source" then v else b.source,
      adminC := if k == "admin-c" then v else b.adminC,
      techC := if k == "tech-c" then v else b.techC,
      mntBy := if k == "mnt-by" then b.mntBy + [v] else b.mntBy)
  }

  function BaseStep(parseTime: TimeParser): (BaseObject, string, string) -> BaseObject {
    (b, k, v) => ApplyBase(b, k, v, parseTime)
  }

  /**
   * `parseBaseObject`: the attributes common to all objects, read from any block. A
   * single-valued key gives its last value, a timestamp the last value that parses (the zero
   * time when none does), and `mnt-by` every value in order.
   */
  function ParseBase(lines: seq<string>, parseTime: TimeParser): (r: BaseObject)
    ensures r.key == Last(lines, "Key")
    ensures r.created == LastTime(lines, "created", parseTime)
    ensures r.lastModified == LastTime(lines, "last-modified", parseTime)
    ensures r.source == Last(lines, "source")
    ensures r.adminC == Last(lines, "admin-c")
    ensures r.techC == Last(lines, "tech-c")
    ensures r.mntBy == Values(lines, "mnt-by")
  {
    var step := BaseStep(parseTime);
    var r := Fold(EmptyBase, lines, step);
    assert r.key == Last(lines, "Key") by {
      FoldLastString(EmptyBase, lines, step, (x: BaseObject) => x.key, "Key");
    }
    assert r.created == LastTime(lines, "created", parseTime) by {
      FoldLastWins(EmptyBase, lines, step, (x: BaseObject) => x.created, "created", parseTime);
    }
    assert r.lastModified == LastTime(lines, "last-modified", parseTime) by {
      FoldLastWins(EmptyBase, lines, step, (x: BaseObject) => x.lastModified, "last-modified", parseTime);
    }
    assert r.source == Last(lines, "source") by {
      FoldLastString(EmptyBase, lines, step, (x: BaseObject) => x.source, "source");
    }
    assert r.adminC == Last(lines, "admin-c") by {
      FoldLastString(EmptyBase, lines, step, (x: BaseObject) => x.adminC, "admin-c");
    }
    assert r.techC == Last(lines, "tech-c") by {
      FoldLastString(EmptyBase, lines, step, (x: BaseObject) => x.techC, "tech-c");
    }
    assert r.mntBy == Values(lines, "mnt-by") by {
      FoldAppends(EmptyBase, lines, step, (x: BaseObject) => x.mntBy, "mnt-by");
    }
    r
  }

  // ---------------------------------------------------------------- the seven object kinds

  /** One case of the `switch` in `parseASN`, written field by field. */
  function ApplyASN(x: ASN, k: string, v: string): ASN {
    x.(
      asNumber := if k == "aut-num" then v else x.asNumber,
      asName := if k == "as-name" then v else x.asName,
      descr := if k == "descr" then x.descr + [v] else x.descr,
      org := if k == "org" then v else x.org,
      status := if k == "status" then v else x.status,
      notify := if k == "notify" then v else x.notify)
  }

  /**
   * `parseASN`: the embedded base is kept; a single-valued key gives its last value and a
   * multi-valued key every value, in order.
   */
  function ParseASN(base: BaseObject, lines: seq<string>): (r: ASN)
    ensures r.base == base
    ensures r.asNumber == Last(lines, "aut-num")
    ensures r.asName == Last(lines, "as-name")
    ensures r.descr == Values(lines, "descr")
    ensures r.org == Last(lines, "org")
    ensures r.status == Last(lines, "status")
    ensures r.notify == Last(lines, "notify")
  {
    var init := ASN(base, "", "", [], "", "", "");
    var r := Fold(init, lines, ApplyASN);
    assert r.base == base by {
      FoldKeeps(init, lines, ApplyASN, (x: ASN) => x.base);
    }
    assert r.asNumber == Last(lines, "aut-num") by {
      FoldLastString(init, lines, ApplyASN, (x: ASN) => x.asNumber, "aut-num");
    }
    assert r.asName == Last(lines, "as-name") by {
      FoldLastString(init, lines, ApplyASN, (x: ASN) => x.asName, "as-name");
    }
    assert r.descr == Values(lines, "descr") by {
      FoldAppends(init, lines, ApplyASN, (x: ASN) => x.descr, "descr");
    }
    assert r.org == Last(lines, "org") by {
      FoldLastString(init, lines, ApplyASN, (x: ASN) => x.org, "org");
    }
    assert r.status == Last(lines, "status") by {
      FoldLastString(init, lines, ApplyASN, (x: ASN) => x.status, "status");
    }
    assert r.notify == Last(lines, "notify") by {
      FoldLastString(init, lines, ApplyASN, (x: ASN) => x.notify, "notify");
    }
    r
  }

  /** One case of the `switch` in `parseInetNum`, written field by field. */
  function ApplyInetNum(x: InetNum, k: string, v: string): InetNum {
    x.(
      ipRange := if k == "inetnum" then v else x.ipRange,
      netName := if k == "netname" then v else x.netName,
      descr := if k == "descr" then x.descr + [v] else x.descr,
      country := if k == "country" then v else x.country,
      status := if k == "status" then v else x.status,
      org := if k == "org" then v else x.org)
  }

  /**
   * `parseInetNum`: the embedded base is kept; a single-valued key gives its last value and a
   * multi-valued key every value, in order.
   */
  function ParseInetNum(base: BaseObject, lines: seq<string>): (r: InetNum)
    ensures r.base == base
    ensures r.ipRange == Last(lines, "inetnum")
    ensures r.netName == Last(lines, "netname")
    ensures r.descr == Values(lines, "descr")
    ensures r.country == Last(lines, "country")
    ensures r.status == Last(lines, "status")
    ensures r.org == Last(lines, "org")
  {
    var init := InetNum(base, "", "", [], "", "", "");
    var r := Fold(init, lines, ApplyInetNum);
    assert r.base == base by {
      FoldKeeps(init, lines, ApplyInetNum, (x: InetNum) => x.base);
    }
    assert r.ipRange == Last(lines, "inetnum") by {
      FoldLastString(init, lines, ApplyInetNum, (x: InetNum) => x.ipRange, "inetnum");
    }
    assert r.netName == Last(lines, "netname") by {
      FoldLastString(init, lines, ApplyInetNum, (x: InetNum) => x.netName, "netname");
    }
    assert r.descr == Values(lines, "descr") by {
      FoldAppends(init, lines, ApplyInetNum, (x: InetNum) => x.descr, "descr");
    }
    assert r.country == Last(lines, "country") by {
      FoldLastString(init, lines, ApplyInetNum, (x: InetNum) => x.country, "country");
    }
    assert r.status == Last(lines, "status") by {
      FoldLastString(init, lines, ApplyInetNum, (x: InetNum) => x.status, "status");
    }
    assert r.org == Last(lines, "org") by {
      FoldLastString(init, lines, ApplyInetNum, (x: InetNum) => x.org, "org");
    }
    r
  }

  /** One case of the `switch` in `parseRoute`, written field by field. */
  function ApplyRoute(x: Route, k: string, v: string): Route {
    x.(
      prefix := if k == "route" then v else x.prefix,
      descr := if k == "descr" then v else x.descr,
      origin := if k == "origin" then v else x.origin,
      org := if k == "org" then v else x.org)
  }

  /**
   * `parseRoute`: the embedded base is kept; a single-valued key gives its last value and a
   * multi-valued key every value, in order.
   */
  function ParseRoute(base: BaseObject, lines: seq<string>): (r: Route)
    ensures r.base == base
    ensures r.prefix == Last(lines, "route")
    ensures r.descr == Last(lines, "descr")
    ensures r.origin == Last(lines, "origin")
    ensures r.org == Last(lines, "org")
  {
    var init := Route(base, "", "", "", "");
    var r := Fold(init, lines, ApplyRoute);
    assert r.base == base by {
      FoldKeeps(init, lines, ApplyRoute, (x: Route) => x.base);
    }
    assert r.prefix == Last(lines, "route") by {
      FoldLastString(init, lines, ApplyRoute, (x: Route) => x.prefix, "route");
    }
    assert r.descr == Last(lines, "descr") by {
      FoldLastString(init, lines, ApplyRoute, (x: Route) => x.descr, "descr");
    }
    assert r.origin == Last(lines, "origin") by {
      FoldLastString(init, lines, ApplyRoute, (x: Route) => x.origin, "origin");
    }
    assert r.org == Last(lines, "org") by {
      FoldLastString(init, lines, ApplyRoute, (x: Route) => x.org, "org");
    }
    r
  }

  /** One case of the `switch` in `parseRoute6`, written field by field. */
  function ApplyRoute6(x: Route6, k: string, v: string): Route6 {
    x.(
      prefix := if k == "route6" then v else x.prefix,
      descr := if k == "descr" then v else x.descr,
      origin := if k == "origin" then v else x.origin,
      org := if k == "org" then v else x.org)
  }

  /**
   * `parseRoute6`: the embedded base is kept; a single-valued key gives its last value and a
   * multi-valued key every value, in order.
   */
  function ParseRoute6(base: BaseObject, lines: seq<string>): (r: Route6)
    ensures r.base == base
    ensures r.prefix == Last(lines, "route6")
    ensures r.descr == Last(lines, "descr")
    ensures r.origin == Last(lines, "origin")
    ensures r.org == Last(lines, "org")
  {
    var init := Route6(base, "", "", "", "");
    var r := Fold(init, lines, ApplyRoute6);
    assert r.base == base by {
      FoldKeeps(init, lines, ApplyRoute6, (x: Route6) => x.base);
    }
    assert r.prefix == Last(lines, "route6") by {
      FoldLastString(init, lines, ApplyRoute6, (x: Route6) => x.prefix, "route6");
    }
    assert r.descr == Last(lines, "descr") by {
      FoldLastString(init, lines, ApplyRoute6, (x: Route6) => x.descr, "descr");
    }
    assert r.origin == Last(lines, "origin") by {
      FoldLastString(init, lines, ApplyRoute6, (x: Route6) => x.origin, "origin");
    }
    assert r.org == Last(lines, "org") by {
      FoldLastString(init, lines, ApplyRoute6, (x: Route6) => x.org, "org");
    }
    r
  }

  /** One case of the `switch` in `parsePerson`, written field by field. */
  function ApplyPerson(x: Person, k: string, v: string): Person {
    x.(
      name := if k == "person" then v else x.name,
      address := if k == "address" then x.address + [v] else x.address,
      phone := if k == "phone" then v else x.phone,
      email := if k == "e-mail" then v else x.email,
      nicHdl := if k == "nic-hdl" then v else x.nicHdl)
  }

  /**
   * `parsePerson`: the embedded base is kept; a single-valued key gives its last value and a
   * multi-valued key every value, in order.
   */
  function ParsePerson(base: BaseObject, lines: seq<string>): (r: Person)
    ensures r.base == base
    ensures r.name == Last(lines, "person")
    ensures r.address == Values(lines, "address")
    ensures r.phone == Last(lines, "phone")
    ensures r.email == Last(lines, "e-mail")
    ensures r.nicHdl == Last(lines, "nic-hdl")
  {
    var init := Person(base, "", [], "", "", "");
    var r := Fold(init, lines, ApplyPerson);
    assert r.base == base by {
      FoldKeeps(init, lines, ApplyPerson, (x: Person) => x.base);
    }
    assert r.name == Last(lines, "person") by {
      FoldLastString(init, lines, ApplyPerson, (x: Person) => x.name, "person");
    }
    assert r.address == Values(lines, "address") by {
      FoldAppends(init, lines, ApplyPerson, (x: Person) => x.address, "address");
    }
    assert r.phone == Last(lines, "phone") by {
      FoldLastString(init, lines, ApplyPerson, (x: Person) => x.phone, "phone");
    }
    assert r.email == Last(lines, "e-mail") by {
      FoldLastString(init, lines, ApplyPerson, (x: Person) => x.email, "e-mail");
    }
    assert r.nicHdl == Last(lines, "nic-hdl") by {
      FoldLastString(init, lines, ApplyPerson, (x: Person) => x.nicHdl, "nic-hdl");
    }
    r
  }

  /** One case of the `switch` in `parseOrganization`, written field by field. */
  function ApplyOrganization(x: Organization, k: string, v: string): Organization {
    x.(
      orgId := if k == "organisation" then v else x.orgId,
      name := if k == "org-name" then v else x.name,
      orgType := if k == "org-type" then v else x.orgType,
      address := if k == "address" then x.address + [v] else x.address,
      email := if k == "e-mail" then v else x.email,
      abuseC := if k == "abuse-c" then v else x.abuseC)
  }

  /**
   * `parseOrganization`: the embedded base is kept; a single-valued key gives its last value and a
   * multi-valued key every value, in order.
   */
  function ParseOrganization(base: BaseObject, lines: seq<string>): (r: Organization)
    ensures r.base == base
    ensures r.orgId == Last(lines, "organisation")
    ensures r.name == Last(lines, "org-name")
    ensures r.orgType == Last(lines, "org-type")
    ensures r.address == Values(lines, "address")
    ensures r.email == Last(lines, "e-mail")
    ensures r.abuseC == Last(lines, "abuse-c")
  {
    var init := Organization(base, "", "", [], "", "", "");
    var r := Fold(init, lines, ApplyOrganization);
    assert r.base == base by {
      FoldKeeps(init, lines, ApplyOrganization, (x: Organization) => x.base);
    }
    assert r.orgId == Last(lines, "organisation") by {
      FoldLastString(init, lines, ApplyOrganization, (x: Organization) => x.orgId, "organisation");
    }
    assert r.name == Last(lines, "org-name") by {
      FoldLastString(init, lines, ApplyOrganization, (x: Organization) => x.name, "org-name");
    }
    assert r.orgType == Last(lines, "org-type") by {
      FoldLastString(init, lines, ApplyOrganization, (x: Organization) => x.orgType, "org-type");
    }
    assert r.address == Values(lines, "address") by {
      FoldAppends(init, lines, ApplyOrganization, (x: Organization) => x.address, "address");
    }
    assert r.email == Last(lines, "e-mail") by {
      FoldLastString(init, lines, ApplyOrganization, (x: Organization) => x.email, "e-mail");
    }
    assert r.abuseC == Last(lines, "abuse-c") by {
      FoldLastString(init, lines, ApplyOrganization, (x: Organization) => x.abuseC, "abuse-c");
    }
    r
  }

  /** One case of the `switch` in `parseDomain`, written field by field. */
  function ApplyDomain(x: Domain, k: string, v: string): Domain {
    x.(
      domainName := if k == "domain" then v else x.domainName,
      descr := if k == "descr" then v else x.descr,
      nameservers := if k == "nserver" then x.nameservers + [v] else x.nameservers,
      zoneC := if k == "zone-c" then v else x.zoneC)
  }

  /**
   * `parseDomain`: the embedded base is kept; a single-valued key gives its last value and a
   * multi-valued key every value, in order.
   */
  function ParseDomain(base: BaseObject, lines: seq<string>): (r: Domain)
    ensures r.base == base
    ensures r.domainName == Last(lines, "domain")
    ensures r.descr == Last(lines, "descr")
    ensures r.nameservers == Values(lines, "nserver")
    ensures r.zoneC == Last(lines, "zone-c")
  {
    var init := Domain(base, "", "", [], "");
    var r := Fold(init, lines, ApplyDomain);
    assert r.base == base by {
      FoldKeeps(init, lines, ApplyDomain, (x: Domain) => x.base);
    }
    assert r.domainName == Last(lines, "domain") by {
      FoldLastString(init, lines, ApplyDomain, (x: Domain) => x.domainName, "domain");
    }
    assert r.descr == Last(lines, "descr") by {
      FoldLastString(init, lines, ApplyDomain, (x: Domain) => x.descr, "descr");
    }
    assert r.nameservers == Values(lines, "nserver") by {
      FoldAppends(init, lines, ApplyDomain, (x: Domain) => x.nameservers, "nserver");
    }
    assert r.zoneC == Last(lines, "zone-c") by {
      FoldLastString(init, lines, ApplyDomain, (x: Domain) => x.zoneC, "zone-c");
    }
    r
  }

  // ---------------------------------------------------------------- dispatch

  /**
   * `parseAndSaveObject` up to the storage call: the record a block of class `hint` becomes,
   * or `None` for a class the parser does not know. No extraction routine can fail.
   */
  function ParseObject(hint: string, lines: seq<string>, parseTime: TimeParser): (r: Option<Record>)
    ensures r.Some? <==> hint in Classes
    ensures r.Some? ==> ClassOf(r.value) == hint && BaseOf(r.value) == ParseBase(lines, parseTime)
  {
    Build(hint, ParseBase(lines, parseTime), lines)
  }

  /** The `switch` of `parseAndSaveObject` once the base object is read. */
  function Build(hint: string, base: BaseObject, lines: seq<string>): (r: Option<Record>)
    ensures r.Some? <==> hint in Classes
    ensures r.Some? ==> ClassOf(r.value) == hint && BaseOf(r.value) == base
  {
    if hint == "aut-num" then Some(MakeAsn(base, lines))
    else if hint == "inetnum" then Some(MakeInetNum(base, lines))
    else if hint == "route" then Some(MakeRoute(base, lines))
    else if hint == "route6" then Some(MakeRoute6(base, lines))
    else if hint == "person" then Some(MakePerson(base, lines))
    else if hint == "organisation" then Some(MakeOrganization(base, lines))
    else if hint == "domain" then Some(MakeDomain(base, lines))
    else None
  }

  /** The record of a block of known type is that type's parse of the block's lines, around the block's base object. */
  lemma ParseObjectRecord(hint: string, lines: seq<string>, parseTime: TimeParser)
    requires hint in Classes
    ensures var r := ParseObject(hint, lines, parseTime).value; var base := ParseBase(lines, parseTime);
      && (hint == "aut-num" ==> r == AsnRecord(ParseASN(base, lines)))
      && (hint == "inetnum" ==> r == InetNumRecord(ParseInetNum(base, lines)))
      && (hint == "route" ==> r == RouteRecord(ParseRoute(base, lines)))
      && (hint == "route6" ==> r == Route6Record(ParseRoute6(base, lines)))
      && (hint == "person" ==> r == PersonRecord(ParsePerson(base, lines)))
      && (hint == "organisation" ==> r == OrganizationRecord(ParseOrganization(base, lines)))
      && (hint == "domain" ==> r == DomainRecord(ParseDomain(base, lines)))
  {
    var base := ParseBase(lines, parseTime);
    assert ParseObject(hint, lines, parseTime) == Build(hint, base, lines);
  }

  // One case of the `switch` each: the record of the block's class around the base object.
  function MakeAsn(base: BaseObject, lines: seq<string>): (r: Record)
    ensures ClassOf(r) == "aut-num" && BaseOf(r) == base
  {
    AsnRecord(ParseASN(base, lines))
  }

  function MakeInetNum(base: BaseObject, lines: seq<string>): (r: Record)
    ensures ClassOf(r) == "inetnum" && BaseOf(r) == base
  {
    InetNumRecord(ParseInetNum(base, lines))
  }

  function MakeRoute(base: BaseObject, lines: seq<string>): (r: Record)
    ensures ClassOf(r) == "route" && BaseOf(r) == base
  {
    RouteRecord(ParseRoute(base, lines))
  }

  function MakeRoute6(base: BaseObject, lines: seq<string>): (r: Record)
    ensures ClassOf(r) == "route6" && BaseOf(r) == base
  {
    Route6Record(ParseRoute6(base, lines))
  }

  function MakePerson(base: BaseObject, lines: seq<string>): (r: Record)
    ensures ClassOf(r) == "person" && BaseOf(r) == base
  {
    PersonRecord(ParsePerson(base, lines))
  }

  function MakeOrganization(base: BaseObject, lines: seq<string>): (r: Record)
    ensures ClassOf(r) == "organisation" && BaseOf(r) == base
  {
    OrganizationRecord(ParseOrganization(base, lines))
  }

  function MakeDomain(base: BaseObject, lines: seq<string>): (r: Record)
    ensures ClassOf(r) == "domain" && BaseOf(r) == base
  {
    DomainRecord(ParseDomain(base, lines))
  }

  /**
   * `parseAndSaveObject`: a known block makes exactly one storage call, with its record, and
   * returns what that call returns; an unknown block leaves the sink alone and returns no error.
   */
  function ParseAndSave<S>(hint: string, lines: seq<string>, sink: S, save: Sink<S>, parseTime: TimeParser): (r: Saved<S>)
    ensures hint !in Classes ==> r == Saved(sink, None)
    ensures hint in Classes ==> exists rec :: ParseObject(hint, lines, parseTime) == Some(rec) && r == save(sink, rec)
  {
    match ParseObject(hint, lines, parseTime)
    case None => Saved(sink, None)
    case Some(rec) => save(sink, rec)
  }

  /** The storage calls for `records`, in order, stopping at the first that reports an error. */
  function SaveAll<S>(records: seq<Record>, sink: S, save: Sink<S>): (r: Saved<S>)
    ensures |records| == 0 ==> r == Saved(sink, None)
    ensures |records| == 1 ==> r == save(sink, records[0])
    decreases |records|
  {
    if |records| == 0 then Saved(sink, None)
    else
      var s := save(sink, records[0]);
      if s.err.Some? then s else SaveAll(records[1..], s.sink, save)
  }

  /** Saving in two parts is saving the whole, and nothing of the second part is saved after an error. */
  lemma {:induction false} SaveAllAppend<S>(xs: seq<Record>, ys: seq<Record>, sink: S, save: Sink<S>)
    ensures SaveAll(xs + ys, sink, save) ==
      var s := SaveAll(xs, sink, save);
      if s.err.Some? then s else SaveAll(ys, s.sink, save)
    decreases |xs|
  {
    if |xs| == 0 {
      assert xs + ys == ys;
    } else {
      assert (xs + ys)[1..] == xs[1..] + ys;
      var s := save(sink, xs[0]);
      if s.err.None? {
        SaveAllAppend(xs[1..], ys, s.sink, save);
      }
    }
  }
}

=== FILE: storage.dfy ===
/**
 * The streaming JSON store: one buffered writer per collection, each file opened with `{`,
 * filled with `"key": object` entries and closed with `}`.
 *
 * A writer is its text already handed to the file (`flushed`), its buffer (`buffered`) and
 * the sticky error a failed flush leaves behind (`failed`). The file system is an oracle.
 */
module Storage {
  import opened Wrappers
  import opened Strings
  import opened Models
  import opened Parser

  /** Capacity of every writer, and the threshold above which a save flushes: 5 MiB. */
  const BufferSize: nat := 5 * 1024 * 1024

  /** The collections, one output file each, in the order the store creates them. */
  const Collections: seq<string> := ["asns", "inetnums", "routes", "routes6", "persons", "organizations", "domains"]

  /** The collection names as a set: the keys of a fresh store. */
  const CollectionNames: set<string> := set n | n in Collections

  const Opening: string := "{\n"
  const Closing: string := "\n}\n"

  datatype Stream = Stream(flushed: string, buffered: string, failed: bool)

  /** The writers, by collection name. */
  type Store = map<string, Stream>

  /**
   * The file system's answers: whether a collection's file can be created, whether a flush of
   * the given text to a collection's file succeeds, and whether closing that file succeeds.
   */
  datatype Disk = Disk(creates: string -> bool, accepts: (string, string) -> bool, closes: string -> bool)

  /** Everything written to a stream so far, on disk or still buffered. */
  function Content(s: Stream): string {
    s.flushed + s.buffered
  }

  /** A fresh writer that has been given the opening bracket. */
  const Fresh: Stream := Stream("", Opening, false)

  // ---------------------------------------------------------------- opening

  /** Creates the writers for `names` in order; the first file that cannot be created aborts. */
  function InitWriters(names: seq<string>, disk: Disk): (r: Result<Store, Error>)
    ensures r.Success? <==> forall i | 0 <= i < |names| :: disk.creates(names[i])
    ensures r.Success? ==> r.value.Keys == set n | n in names
    ensures r.Success? ==> forall n | n in r.value :: r.value[n] == Fresh
    ensures r.Failure? ==> exists i | 0 <= i < |names| ::
      && r.error == CreateFailed(names[i])
      && !disk.creates(names[i])
      && forall j | 0 <= j < i :: disk.creates(names[j])
    decreases |names|
  {
    if |names| == 0 then Success(map[])
    else if !disk.creates(names[0]) then Failure(CreateFailed(names[0]))
    else
      match InitWriters(names[1..], disk)
      case Failure(e) =>
        ghost var i :| 0 <= i < |names[1..]| && e == CreateFailed(names[1..][i]) && !disk.creates(names[1..][i])
          && forall j | 0 <= j < i :: disk.creates(names[1..][j]);
        assert forall j | 0 <= j < i + 1 :: disk.creates(names[j]) by {
          forall j | 0 <= j < i + 1 ensures disk.creates(names[j]) {
            if j > 0 { assert names[j] == names[1..][j - 1]; }
          }
        }
        Failure(e)
      case Success(st) =>
        assert forall i | 0 <= i < |names| :: disk.creates(names[i]) by {
          forall i | 0 <= i < |names| ensures disk.creates(names[i]) {
            if i > 0 { assert names[i] == names[1..][i - 1]; }
          }
        }
        assert (set n | n in names) == (set n | n in names[1..]) + {names[0]} by {
          forall n | n in names ensures n == names[0] || n in names[1..] {
            var i :| 0 <= i < |names| && names[i] == n;
            if i > 0 { assert names[1..][i - 1] == n; }
          }
        }
        Success(st[names[0] := Fresh])
  }

  /** `NewStorage`: one fresh writer per collection, or the first collection whose file cannot be created. */
  function NewStorage(disk: Disk): (r: Result<Store, Error>)
    ensures r.Success? <==> forall i | 0 <= i < |Collections| :: disk.creates(Collections[i])
    ensures r.Success? ==> r.value.Keys == CollectionNames
    ensures r.Success? ==> forall n | n in r.value :: Content(r.value[n]) == Opening && !r.value[n].failed
    ensures r.Failure? ==> exists i | 0 <= i < |Collections| ::
      r.error == CreateFailed(Collections[i]) && !disk.creates(Collections[i])
  {
    InitWriters(Collections, disk)
  }

  // ---------------------------------------------------------------- the writer

  /** `WriteString` on a writer whose buffer has room: it appends, unless an earlier flush failed. */
  function Write(s: Stream, text: string): (r: Stream)
    ensures r.failed == s.failed && r.flushed == s.flushed
    ensures Content(r) == Content(s) + (if s.failed then "" else text)
  {
    if s.failed then s else s.(buffered := s.buffered + text)
  }

  /** `Flush`: the buffered text goes to the file, or the writer keeps the failure. */
  function Flush(s: Stream, name: string, disk: Disk): (r: Stream)
    ensures Content(r) == Content(s)
    ensures r.failed <==> s.failed || (s.buffered != "" && !disk.accepts(name, s.buffered))
    ensures !r.failed ==> r.buffered == "" && r.flushed == Content(s)
    ensures r.failed ==> r.flushed == s.flushed
  {
    if s.failed || s.buffered == "" then s
    else if disk.accepts(name, s.buffered) then Stream(s.flushed + s.buffered, "", false)
    else s.(failed := true)
  }

  // ---------------------------------------------------------------- saving

  /** One entry of a collection file: the quoted key, a colon and the object's JSON. No separator follows. */
  function Entry(key: string, json: string): (e: string)
    ensures |e| == |key| + |json| + 6
    ensures e[..3] == "  \""
    ensures e[3..3 + |key|] == key && e[3 + |key|] == '"'
    ensures e[4 + |key|..6 + |key|] == ": "
    ensures e[|e| - |json|..] == json
  {
    "  \"" + key + "\": " + json
  }

  /** A key without a quote can be read back from its entry: two such entries are equal only for the same key and JSON. */
  lemma EntryInjective(k1: string, j1: string, k2: string, j2: string)
    requires '"' !in k1 && '"' !in k2
    requires Entry(k1, j1) == Entry(k2, j2)
    ensures k1 == k2 && j1 == j2
  {
    KeyNotShorter(k1, j1, k2, j2);
    KeyNotShorter(k2, j2, k1, j1);
    assert k1 == Entry(k1, j1)[3..3 + |k1|];
  }

  /** The quote that closes a key cannot fall inside a quote-free key of the same entry. */
  lemma KeyNotShorter(k1: string, j1: string, k2: string, j2: string)
    requires '"' !in k1
    requires Entry(k1, j1) == Entry(k2, j2)
    ensures |k1| <= |k2|
  {
  }

  /**
   * `saveObject`: looks up the writer, marshals the object, appends its entry and flushes when
   * the buffer holds more than `BufferSize` bytes.
   */
  function SaveObject(st: Store, name: string, key: string, json: Option<string>, disk: Disk): (r: Saved<Store>)
    ensures r.sink.Keys == st.Keys
    ensures forall n | n in st && n != name :: r.sink[n] == st[n]
    ensures name !in st ==> r == Saved(st, Some(NotInitialized(name)))
    ensures name in st && json.None? ==> r == Saved(st, Some(MarshalFailed))
    ensures name in st && json.Some? ==>
      Content(r.sink[name]) == Content(st[name]) + (if st[name].failed then "" else Entry(key, json.value))
    ensures name in st && json.Some? && st[name].failed ==> r == Saved(st, Some(WriteFailed(name)))
    ensures r.err.None? <==> name in st && json.Some? && !r.sink[name].failed
    ensures r.err.None? ==> Utf8Len(r.sink[name].buffered) <= BufferSize
    ensures r.err == Some(FlushFailed(name)) ==> name in st && !st[name].failed && r.sink[name].failed
    ensures name in st && json.Some? && !st[name].failed && r.err.Some? ==> r.err == Some(FlushFailed(name))
    ensures name in st && json.Some? && !st[name].failed ==>
      var w := st[name].buffered + Entry(key, json.value);
      && (Utf8Len(w) <= BufferSize ==> r.sink[name] == st[name].(buffered := w))
      && (Utf8Len(w) > BufferSize && r.err.None? ==> r.sink[name].buffered == "" && r.sink[name].flushed == Content(r.sink[name]))
  {
    if name !in st then Saved(st, Some(NotInitialized(name)))
    else if json.None? then Saved(st, Some(MarshalFailed))
    else if st[name].failed then Saved(st, Some(WriteFailed(name)))
    else
      var w := Write(st[name], Entry(key, json.value));
      if Utf8Len(w.buffered) > BufferSize then
        var f := Flush(w, name, disk);
        Saved(st[name := f], if f.failed then Some(FlushFailed(name)) else None)
      else Saved(st[name := w], None)
  }

  /** The collection each kind of record is saved to. */
  function CollectionOf(r: Record): (c: string)
    ensures c in Collections
  {
    match r
    case AsnRecord(_) => "asns"
    case InetNumRecord(_) => "inetnums"
    case RouteRecord(_) => "routes"
    case Route6Record(_) => "routes6"
    case PersonRecord(_) => "persons"
    case OrganizationRecord(_) => "organizations"
    case DomainRecord(_) => "domains"
  }

  /** The field that keys each kind of record in its collection. */
  function KeyOf(r: Record): string {
    match r
    case AsnRecord(a) => a.asNumber
    case InetNumRecord(i) => i.ipRange
    case RouteRecord(t) => t.prefix
    case Route6Record(t) => t.prefix
    case PersonRecord(p) => p.nicHdl
    case OrganizationRecord(o) => o.orgId
    case DomainRecord(d) => d.domainName
  }

  /** The attribute whose last value keys the records of each class in their collection. */
  function PrimaryKey(hint: string): (key: string)
    requires hint in Classes
  {
    if hint == "person" then "nic-hdl" else hint
  }

  /** The key of a block's entry is the last value of its class's keying attribute in the block. */
  lemma KeyOfBlock(hint: string, lines: seq<string>, parseTime: TimeParser)
    requires hint in Classes
    ensures KeyOf(ParseObject(hint, lines, parseTime).value) == Last(lines, PrimaryKey(hint))
  {
    var r := ParseObject(hint, lines, parseTime).value;
    var base := ParseBase(lines, parseTime);
    ParseObjectRecord(hint, lines, parseTime);
    if hint == "aut-num" {
      assert KeyOf(r) == ParseASN(base, lines).asNumber;
    } else if hint == "inetnum" {
      assert KeyOf(r) == ParseInetNum(base, lines).ipRange;
    } else if hint == "route" {
      assert KeyOf(r) == ParseRoute(base, lines).prefix;
    } else if hint == "route6" {
      assert KeyOf(r) == ParseRoute6(base, lines).prefix;
    } else if hint == "person" {
      assert KeyOf(r) == ParsePerson(base, lines).nicHdl;
    } else if hint == "organisation" {
      assert KeyOf(r) == ParseOrganization(base, lines).orgId;
    } else {
      assert KeyOf(r) == ParseDomain(base, lines).domainName;
    }
  }

  /** Each kind of record has a collection of its own, and every collection receives one kind. */
  lemma CollectionsByKind(a: Record, b: Record)
    ensures CollectionOf(a) == CollectionOf(b) <==> ClassOf(a) == ClassOf(b)
  {
  }

  /** Every collection is the destination of some kind of record. */
  lemma EveryCollectionUsed(c: string)
    requires c in Collections
    ensures exists r: Record :: CollectionOf(r) == c
  {
    var b := EmptyBase;
    if c == "asns" { assert CollectionOf(AsnRecord(ASN(b, "", "", [], "", "", ""))) == c; }
    else if c == "inetnums" { assert CollectionOf(InetNumRecord(InetNum(b, "", "", [], "", "", ""))) == c; }
    else if c == "routes" { assert CollectionOf(RouteRecord(Route(b, "", "", "", ""))) == c; }
    else if c == "routes6" { assert CollectionOf(Route6Record(Route6(b, "", "", "", ""))) == c; }
    else if c == "persons" { assert CollectionOf(PersonRecord(Person(b, "", [], "", "", ""))) == c; }
    else if c == "organizations" { assert CollectionOf(OrganizationRecord(Organization(b, "", "", [], "", "", ""))) == c; }
    else { assert CollectionOf(DomainRecord(Domain(b, "", "", [], ""))) == c; }
  }

  /** The `Save` method for a record's kind; `marshal` is `json.Marshal`, `None` when it fails. */
  function Save(st: Store, r: Record, marshal: Record -> Option<string>, disk: Disk): (s: Saved<Store>)
    ensures s.sink.Keys == st.Keys
    ensures forall n | n in st && n != CollectionOf(r) :: s.sink[n] == st[n]
    ensures s.err.None? ==>
      && marshal(r).Some?
      && CollectionOf(r) in st
      && !st[CollectionOf(r)].failed
      && !s.sink[CollectionOf(r)].failed
      && Content(s.sink[CollectionOf(r)]) == Content(st[CollectionOf(r)]) + Entry(KeyOf(r), marshal(r).value)
  {
    SaveObject(st, CollectionOf(r), KeyOf(r), marshal(r), disk)
  }

  /** The store as the parser's sink. */
  function Saver(marshal: Record -> Option<string>, disk: Disk): Sink<Store> {
    (st, r) => Save(st, r, marshal, disk)
  }

  /** The entry `r` contributes to collection `c`: none when it belongs elsewhere or cannot be marshalled. */
  function EntryIn(r: Record, c: string, marshal: Record -> Option<string>): string {
    if CollectionOf(r) == c && marshal(r).Some? then Entry(KeyOf(r), marshal(r).value) else ""
  }

  /** The entries of the records of collection `c`, in order. */
  function Entries(rs: seq<Record>, c: string, marshal: Record -> Option<string>): string
    decreases |rs|
  {
    if |rs| == 0 then "" else EntryIn(rs[0], c, marshal) + Entries(rs[1..], c, marshal)
  }

  /** A successful save adds its record's entry to its own collection and nothing to the others. */
  lemma SaveAddsEntry(st: Store, r: Record, marshal: Record -> Option<string>, disk: Disk, c: string)
    requires Save(st, r, marshal, disk).err.None?
    requires c in st
    ensures Content(Save(st, r, marshal, disk).sink[c]) == Content(st[c]) + EntryIn(r, c, marshal)
  {
    if CollectionOf(r) != c {
      assert Content(st[c]) + "" == Content(st[c]);
    }
  }

  /** After an error-free run of saves, each collection holds exactly its records' entries, in order, after what it held. */
  lemma {:induction false} SaveAllContents(rs: seq<Record>, st: Store, marshal: Record -> Option<string>, disk: Disk)
    ensures var s := SaveAll(rs, st, Saver(marshal, disk));
      s.err.None? ==>
        && s.sink.Keys == st.Keys
        && (forall c | c in st :: s.sink[c].failed == st[c].failed)
        && (forall c | c in st :: Content(s.sink[c]) == Content(st[c]) + Entries(rs, c, marshal))
    decreases |rs|
  {
    if |rs| == 0 {
      forall c | c in st ensures Content(st[c]) == Content(st[c]) + Entries(rs, c, marshal) {
        assert Content(st[c]) + "" == Content(st[c]);
      }
    } else {
      var first := Save(st, rs[0], marshal, disk);
      assert Saver(marshal, disk)(st, rs[0]) == first;
      if first.err.None? {
        var s := SaveAll(rs[1..], first.sink, Saver(marshal, disk));
        assert SaveAll(rs, st, Saver(marshal, disk)) == s;
        SaveAllContents(rs[1..], first.sink, marshal, disk);
        if s.err.None? {
          forall c | c in st
            ensures Content(s.sink[c]) == Content(st[c]) + Entries(rs, c, marshal)
          {
            SaveAddsEntry(st, rs[0], marshal, disk, c);
            var before, here, rest := Content(st[c]), EntryIn(rs[0], c, marshal), Entries(rs[1..], c, marshal);
            assert Content(s.sink[c]) == before + here + rest;
            assert Entries(rs, c, marshal) == here + rest;
            AppendAssoc(before, here, rest);
          }
        }
      }
    }
  }

  /** A healthy store on a disk that takes every write never reports an error for marshallable records. */
  lemma {:induction false} SaveAllSucceeds(rs: seq<Record>, st: Store, marshal: Record -> Option<string>, disk: Disk)
    requires forall i | 0 <= i < |Collections| :: Collections[i] in st
    requires forall n | n in st :: !st[n].failed
    requires forall i | 0 <= i < |rs| :: marshal(rs[i]).Some?
    requires forall n, text :: disk.accepts(n, text)
    ensures SaveAll(rs, st, Saver(marshal, disk)).err.None?
    decreases |rs|
  {
    if |rs| > 0 {
      var c := CollectionOf(rs[0]);
      var first := Saver(marshal, disk)(st, rs[0]);
      assert first == Save(st, rs[0], marshal, disk);
      assert c in st;
      assert !first.sink[c].failed;
      assert forall i | 0 <= i < |rs[1..]| :: marshal(rs[1..][i]).Some? by {
        forall i | 0 <= i < |rs[1..]| ensures marshal(rs[1..][i]).Some? {
          assert rs[1..][i] == rs[i + 1];
        }
      }
      SaveAllSucceeds(rs[1..], first.sink, marshal, disk);
    }
  }

  // ---------------------------------------------------------------- closing

  /** The store after `Close`, the collections whose file was left open, and the error returned. */
  datatype Closed = Closed(store: Store, open: set<string>, err: Option<Error>)

  /** The error closing one writer leaves, the later step's error replacing the earlier one. */
  function CloseError(s: Stream, name: string, disk: Disk): (e: Option<Error>)
    ensures e.None? <==> !s.failed && disk.accepts(name, s.buffered + Closing) && disk.closes(name)
    ensures e.Some? ==> e.value in {BracketFailed(name), CloseFlushFailed(name), FileCloseFailed(name)}
  {
    if s.failed then Some(BracketFailed(name))
    else if !disk.closes(name) then Some(FileCloseFailed(name))
    else if !disk.accepts(name, s.buffered + Closing) then Some(CloseFlushFailed(name))
    else None
  }

  /** A writer once `Close` has visited it: bracketed and flushed, or left alone after an earlier failure. */
  function Finished(s: Stream, name: string, disk: Disk): (r: Stream)
    ensures s.failed ==> r == s
    ensures !s.failed ==> Content(r) == Content(s) + Closing
    ensures !s.failed ==> (r.failed <==> !disk.accepts(name, s.buffered + Closing))
    ensures !r.failed ==> r.buffered == "" && r.flushed == Content(r)
  {
    if s.failed then s else Flush(Write(s, Closing), name, disk)
  }

  /** One iteration of `Close`: closing bracket, flush, file close, each failure replacing `lastErr`. */
  function CloseOne(c: Closed, name: string, disk: Disk): (r: Closed)
    requires name in c.store
    ensures r.store == c.store[name := Finished(c.store[name], name, disk)]
    ensures r.open == if c.store[name].failed then c.open else c.open - {name}
    ensures r.err == if CloseError(c.store[name], name, disk).Some? then CloseError(c.store[name], name, disk) else c.err
  {
    var s := c.store[name];
    var w := Write(s, Closing);
    if w.failed then Closed(c.store, c.open, Some(BracketFailed(name)))
    else
      var f := Flush(w, name, disk);
      var err := if f.failed then Some(CloseFlushFailed(name)) else c.err;
      Closed(c.store[name := f], c.open - {name}, if !disk.closes(name) then Some(FileCloseFailed(name)) else err)
  }

  /** The loop of `Close` over the writers in `order`. */
  function CloseLoop(c: Closed, order: seq<string>, disk: Disk): (r: Closed)
    requires forall i | 0 <= i < |order| :: order[i] in c.store
    ensures r.store.Keys == c.store.Keys
    decreases |order|
  {
    if |order| == 0 then c
    else CloseLoop(CloseOne(c, order[0], disk), order[1..], disk)
  }

  /** The error of the latest writer in `order` whose closing fails. */
  function LastError(st: Store, order: seq<string>, disk: Disk): (e: Option<Error>)
    requires forall i | 0 <= i < |order| :: order[i] in st
    ensures e.None? <==> forall i | 0 <= i < |order| :: CloseError(st[order[i]], order[i], disk).None?
    ensures e.Some? ==> exists i | 0 <= i < |order| ::
      && e == CloseError(st[order[i]], order[i], disk)
      && forall j | i < j < |order| :: CloseError(st[order[j]], order[j], disk).None?
    decreases |order|
  {
    if |order| == 0 then None
    else
      var later := LastError(st, order[1..], disk);
      if later.Some? then
        assert forall i | 0 <= i < |order[1..]| :: order[1..][i] == order[i + 1];
        later
      else
        assert forall i | 0 < i < |order| :: order[i] == order[1..][i - 1];
        CloseError(st[order[0]], order[0], disk)
  }

  /** `order` lists every writer of the store exactly once: the map iteration order of `Close`. */
  predicate Enumerates(keys: set<string>, order: seq<string>) {
    && (forall i | 0 <= i < |order| :: order[i] in keys)
    && (forall n | n in keys :: n in order)
    && (forall i, j | 0 <= i < j < |order| :: order[i] != order[j])
  }

  /** `Close`: every writer gets its closing bracket and is flushed and closed, whatever failed before. */
  function Close(st: Store, order: seq<string>, disk: Disk): (r: Closed)
    requires Enumerates(st.Keys, order)
    ensures r.store.Keys == st.Keys
    ensures forall n | n in st :: r.store[n] == Finished(st[n], n, disk)
    ensures forall n :: n in r.open <==> n in st && st[n].failed
    ensures r.err == LastError(st, order, disk)
  {
    var c := Closed(st, st.Keys, None);
    CloseLoopStores(c, order, disk);
    CloseLoopOpen(c, order, disk);
    CloseLoopError(c, order, disk);
    CloseLoop(c, order, disk)
  }

  /** The closing error depends only on the writers in `order`. */
  lemma {:induction false} LastErrorFrame(st: Store, st': Store, order: seq<string>, disk: Disk)
    requires forall i | 0 <= i < |order| :: order[i] in st && order[i] in st' && st[order[i]] == st'[order[i]]
    ensures LastError(st, order, disk) == LastError(st', order, disk)
    decreases |order|
  {
    if |order| > 0 {
      LastErrorFrame(st, st', order[1..], disk);
    }
  }

  /** Distinct names after the first are still untouched after the first iteration. */
  lemma CloseOneFrame(c: Closed, order: seq<string>, disk: Disk)
    requires |order| > 0
    requires forall i | 0 <= i < |order| :: order[i] in c.store
    requires forall i, j | 0 <= i < j < |order| :: order[i] != order[j]
    ensures var c1 := CloseOne(c, order[0], disk);
      forall i | 0 <= i < |order[1..]| :: order[1..][i] in c1.store && order[1..][i] != order[0] && c1.store[order[1..][i]] == c.store[order[1..][i]]
  {
    var c1 := CloseOne(c, order[0], disk);
    forall i | 0 <= i < |order[1..]| ensures order[1..][i] in c1.store && order[1..][i] != order[0] && c1.store[order[1..][i]] == c.store[order[1..][i]] {
      assert order[1..][i] == order[i + 1];
    }
  }

  /** The loop visits each writer in `order` once and leaves the others alone. */
  lemma {:induction false} CloseLoopStores(c: Closed, order: seq<string>, disk: Disk)
    requires forall i | 0 <= i < |order| :: order[i] in c.store
    requires forall i, j | 0 <= i < j < |order| :: order[i] != order[j]
    ensures var r := CloseLoop(c, order, disk);
      forall n | n in c.store :: r.store[n] == if n in order then Finished(c.store[n], n, disk) else c.store[n]
    decreases |order|
  {
    if |order| > 0 {
      var c1 := CloseOne(c, order[0], disk);
      var rest := order[1..];
      CloseOneFrame(c, order, disk);
      CloseLoopStores(c1, rest, disk);
      var r := CloseLoop(c, order, disk);
      forall n | n in c.store
        ensures r.store[n] == if n in order then Finished(c.store[n], n, disk) else c.store[n]
      {
        if n == order[0] {
          assert n !in rest;
        } else {
          assert n in order <==> n in rest;
        }
      }
    }
  }

  /** The loop closes the file of each healthy writer it visits; the others stay as they were. */
  lemma {:induction false} CloseLoopOpen(c: Closed, order: seq<string>, disk: Disk)
    requires forall i | 0 <= i < |order| :: order[i] in c.store
    requires forall i, j | 0 <= i < j < |order| :: order[i] != order[j]
    ensures var r := CloseLoop(c, order, disk);
      forall n :: n in r.open <==> n in c.open && !(n in order && !c.store[n].failed)
    decreases |order|
  {
    if |order| > 0 {
      var c1 := CloseOne(c, order[0], disk);
      var rest := order[1..];
      CloseOneFrame(c, order, disk);
      CloseLoopOpen(c1, rest, disk);
      var r := CloseLoop(c, order, disk);
      forall n ensures n in r.open <==> n in c.open && !(n in order && !c.store[n].failed) {
        if n == order[0] {
          assert n !in rest;
        } else {
          assert n in order <==> n in rest;
          if n in rest {
            var i :| 0 <= i < |rest| && rest[i] == n;
          }
        }
      }
    }
  }

  /** The loop returns the latest failure in `order`, or the error it started with when none fails. */
  lemma {:induction false} CloseLoopError(c: Closed, order: seq<string>, disk: Disk)
    requires forall i | 0 <= i < |order| :: order[i] in c.store
    requires forall i, j | 0 <= i < j < |order| :: order[i] != order[j]
    ensures CloseLoop(c, order, disk).err == (var e := LastError(c.store, order, disk); if e.Some? then e else c.err)
    decreases |order|
  {
    if |order| > 0 {
      var c1 := CloseOne(c, order[0], disk);
      var rest := order[1..];
      CloseOneFrame(c, order, disk);
      CloseLoopError(c1, rest, disk);
      LastErrorFrame(c1.store, c.store, rest, disk);
    }
  }

  /** `Close` reports no error exactly when every writer was healthy and every flush and file close succeeded. */
  lemma CloseSucceeds(st: Store, order: seq<string>, disk: Disk)
    requires Enumerates(st.Keys, order)
    ensures Close(st, order, disk).err.None? <==>
      forall n | n in st :: !st[n].failed && disk.accepts(n, st[n].buffered + Closing) && disk.closes(n)
  {
    if Close(st, order, disk).err.None? {
      forall n | n in st ensures !st[n].failed && disk.accepts(n, st[n].buffered + Closing) && disk.closes(n) {
        var i :| 0 <= i < |order| && order[i] == n;
        assert CloseError(st[order[i]], order[i], disk).None?;
      }
    }
  }
}

=== FILE: strings.dfy ===
/** The few operations of Go's `strings` package the parser relies on. */
module Strings {
  import opened Wrappers

  /** Go's `unicode.IsSpace`: the characters with the Unicode White_Space property. */
  predicate IsSpace(c: char) {
    || c == ' ' || c == '\t' || c == '\n' || c == '\U{000B}' || c == '\U{000C}' || c == '\r'
    || c == '\U{0085}' || c == '\U{00A0}' || c == '\U{1680}'
    || ('\U{2000}' <= c <= '\U{200A}')
    || c == '\U{2028}' || c == '\U{2029}' || c == '\U{202F}' || c == '\U{205F}' || c == '\U{3000}'
  }

  predicate AllSpace(s: string) {
    forall i | 0 <= i < |s| :: IsSpace(s[i])
  }

  /** `s` without its leading white space. */
  function TrimLeft(s: string): (r: string)
    ensures |r| <= |s| && r == s[|s| - |r|..]
    ensures AllSpace(s[..|s| - |r|])
    ensures |r| > 0 ==> !IsSpace(r[0])
    decreases |s|
  {
    if |s| > 0 && IsSpace(s[0]) then TrimLeft(s[1..]) else s
  }

  /** `s` without its trailing white space. */
  function TrimRight(s: string): (r: string)
    ensures |r| <= |s| && r == s[..|r|]
    ensures AllSpace(s[|r|..])
    ensures |r| > 0 ==> !IsSpace(r[|r| - 1])
    decreases |s|
  {
    if |s| > 0 && IsSpace(s[|s| - 1]) then TrimRight(s[..|s| - 1]) else s
  }

  /** Go's `strings.TrimSpace`. */
  function TrimSpace(s: string): (r: string)
    ensures |r| <= |s|
    ensures |r| > 0 ==> !IsSpace(r[0]) && !IsSpace(r[|r| - 1])
    ensures r == "" <==> AllSpace(s)
  {
    var l := TrimLeft(s);
    var r := TrimRight(l);
    assert r == "" ==> AllSpace(s) by {
      if r == "" {
        assert s == s[..|s| - |l|] + l;
        assert AllSpace(l[|r|..]);
      }
    }
    r
  }

  /** Trimming removes exactly the white space around a core that neither starts nor ends with it. */
  lemma {:induction false} TrimSpaceExact(p: string, x: string, q: string)
    requires AllSpace(p) && AllSpace(q)
    requires |x| > 0 ==> !IsSpace(x[0]) && !IsSpace(x[|x| - 1])
    ensures TrimSpace(p + x + q) == x
  {
    if |x| == 0 {
      assert AllSpace(p + x + q);
    } else {
      TrimLeftPrefix(p, x + q);
      assert p + x + q == p + (x + q);
      TrimRightSuffix(x, q);
    }
  }

  lemma {:induction false} TrimLeftPrefix(p: string, y: string)
    requires AllSpace(p)
    requires |y| > 0 && !IsSpace(y[0])
    ensures TrimLeft(p + y) == y
    decreases |p|
  {
    if |p| > 0 {
      assert (p + y)[1..] == p[1..] + y;
      TrimLeftPrefix(p[1..], y);
    } else {
      assert p + y == y;
    }
  }

  lemma {:induction false} TrimRightSuffix(y: string, q: string)
    requires AllSpace(q)
    requires |y| > 0 && !IsSpace(y[|y| - 1])
    ensures TrimRight(y + q) == y
    decreases |q|
  {
    if |q| > 0 {
      assert (y + q)[..|y + q| - 1] == y + q[..|q| - 1];
      TrimRightSuffix(y, q[..|q| - 1]);
    } else {
      assert y + q == y;
    }
  }

  /** Trimming twice is trimming once. */
  lemma TrimSpaceIdempotent(s: string)
    ensures TrimSpace(TrimSpace(s)) == TrimSpace(s)
  {
    var t := TrimSpace(s);
    TrimSpaceExact("", t, "");
    assert "" + t + "" == t;
  }

  /**
   * The two sides of the first occurrence of `sep` in `s`, or `None` when `sep` does not
   * occur: the two-element case of Go's `strings.SplitN(s, sep, 2)`.
   */
  function Cut(s: string, sep: char): (r: Option<(string, string)>)
    ensures r.None? <==> sep !in s
    ensures r.Some? ==> sep !in r.value.0 && s == r.value.0 + [sep] + r.value.1
    decreases |s|
  {
    if |s| == 0 then None
    else if s[0] == sep then Some(("", s[1..]))
    else
      match Cut(s[1..], sep)
      case None => None
      case Some(parts) => Some(([s[0]] + parts.0, parts.1))
  }

  /** Number of bytes of the UTF-8 encoding of one character. */
  function Utf8Width(c: char): (n: nat)
    ensures 1 <= n <= 4
    ensures n == 1 <==> c < '\U{0080}'
  {
    if c < '\U{0080}' then 1
    else if c < '\U{0800}' then 2
    else if c < '\U{10000}' then 3
    else 4
  }

  /** Length in bytes of the UTF-8 encoding of `s`, which is what Go's `len` counts. */
  function Utf8Len(s: string): (n: nat)
    ensures |s| <= n <= 4 * |s|
    decreases |s|
  {
    if |s| == 0 then 0 else Utf8Width(s[0]) + Utf8Len(s[1..])
  }
}

=== FILE: tokenizer.dfy ===
/**
 * The block reader of `parseFromReader`: it groups the scanner's lines into blank-line
 * separated blocks, classifies each by its first line and hands it to the parser.
 */
module Tokenizer {
  import opened Wrappers
  import opened Models
  import opened Parser
  import opened Strings

  /** One object block: its type hint and its lines, none of them empty. */
  datatype Block = Block(hint: string, lines: seq<string>)

  /** The type hint a block's first line gives: its trimmed key, or `""` without a colon. */
  function HintOf(line: string): (h: string)
    ensures ':' !in line ==> h == ""
    ensures ':' in line ==> exists i | 0 <= i < |line| ::
      line[i] == ':' && ':' !in line[..i] && h == TrimSpace(line[..i])
  {
    match Field(line)
    case Some(kv) => kv.0
    case None => ""
  }

  // ---------------------------------------------------------------- the reading loop

  /** The loop's variables: the lines of the block being read, its type, and the blocks already closed. */
  datatype Reader = Reader(current: seq<string>, hint: string, closed: seq<Block>)

  /** One iteration of the loop over the scanner's lines. */
  function Step(r: Reader, line: string): (r': Reader)
    ensures line == "" && |r.current| == 0 ==> r' == r
    ensures line == "" ==> r'.current == []
    ensures line == "" ==> r'.closed == r.closed + (if |r.current| > 0 then [Block(r.hint, r.current)] else [])
    ensures line == "" && |r.current| > 0 ==> r'.hint == ""
    ensures line != "" ==> r'.current == r.current + [line] && r'.closed == r.closed
    ensures line != "" && |r.current| == 0 && ':' in line ==> r'.hint == HintOf(line)
    ensures |r.current| > 0 ==> r'.hint == r.hint || line == ""
    ensures line != "" && |r.current| == 0 && ':' !in line ==> r'.hint == r.hint
  {
    if |r.current| == 0 && line == "" then r
    else if line == "" then Reader([], "", r.closed + [Block(r.hint, r.current)])
    else
      var hint :=
        if |r.current| == 0 && ':' in line then HintOf(line) else r.hint;
      Reader(r.current + [line], hint, r.closed)
  }

  function Loop(r: Reader, lines: seq<string>): Reader
    decreases |lines|
  {
    if |lines| == 0 then r else Loop(Step(r, lines[0]), lines[1..])
  }

  /** After the loop, the block still being read is closed too. */
  function Finish(r: Reader): (bs: seq<Block>)
    ensures |bs| == |r.closed| + (if |r.current| > 0 then 1 else 0)
    ensures bs[..|r.closed|] == r.closed
    ensures |r.current| > 0 ==> bs[|bs| - 1] == Block(r.hint, r.current)
  {
    if |r.current| > 0 then r.closed + [Block(r.hint, r.current)] else r.closed
  }

  /**
   * The blocks `parseFromReader` hands to the parser, in order, for the scanner's lines:
   * exactly the maximal runs of non-empty lines, each typed by its first line.
   */
  function Blocks(lines: seq<string>): (bs: seq<Block>)
    ensures bs == Split(lines)
  {
    LoopRest(Reader([], "", []), lines);
    assert [] + Split(lines) == Split(lines);
    Finish(Loop(Reader([], "", []), lines))
  }

  // ---------------------------------------------------------------- reference definition

  /** Length of the run of non-empty lines at the front of `lines`. */
  function RunLength(lines: seq<string>): (n: nat)
    ensures n <= |lines|
    ensures forall i | 0 <= i < n :: lines[i] != ""
    ensures n < |lines| ==> lines[n] == ""
    decreases |lines|
  {
    if |lines| == 0 || lines[0] == "" then 0 else 1 + RunLength(lines[1..])
  }

  /** The maximal runs of non-empty lines, in order. */
  function Runs(lines: seq<string>): seq<seq<string>>
    decreases |lines|
  {
    if |lines| == 0 then []
    else if lines[0] == "" then Runs(lines[1..])
    else
      var n := RunLength(lines);
      [lines[..n]] + Runs(lines[n..])
  }

  /** Each group of lines as a block, typed by its first line. */
  function Classify(groups: seq<seq<string>>): (blocks: seq<Block>)
    ensures |blocks| == |groups|
    ensures forall i | 0 <= i < |groups| :: blocks[i].lines == groups[i]
    decreases |groups|
  {
    if |groups| == 0 then []
    else
      var hint := if |groups[0]| == 0 then "" else HintOf(groups[0][0]);
      [Block(hint, groups[0])] + Classify(groups[1..])
  }

  /** The reference split: each maximal run of non-empty lines is one block, typed by its first line. */
  function Split(lines: seq<string>): seq<Block> {
    Classify(Runs(lines))
  }

  /** What the loop still produces from a reader holding `current` with type `hint`. */
  function Rest(current: seq<string>, hint: string, lines: seq<string>): seq<Block> {
    if |current| == 0 then Split(lines)
    else
      var n := RunLength(lines);
      [Block(hint, current + lines[..n])] + Split(lines[n..])
  }

  lemma {:induction false} LoopRest(r: Reader, lines: seq<string>)
    requires |r.current| == 0 ==> r.hint == ""
    ensures Finish(Loop(r, lines)) == r.closed + Rest(r.current, r.hint, lines)
    decreases |lines|
  {
    if |lines| == 0 {
      assert r.current + lines[..0] == r.current;
    } else {
      var next := Step(r, lines[0]);
      LoopRest(next, lines[1..]);
      if lines[0] == "" {
        EmptyLineRest(r, lines);
      } else {
        ContentLineRest(r, lines);
      }
    }
  }

  /** An empty line closes the block being read, if any, and is otherwise skipped. */
  lemma EmptyLineRest(r: Reader, lines: seq<string>)
    requires |lines| > 0 && lines[0] == ""
    requires |r.current| == 0 ==> r.hint == ""
    ensures var next := Step(r, lines[0]);
      next.closed + Rest(next.current, next.hint, lines[1..]) == r.closed + Rest(r.current, r.hint, lines)
  {
    assert RunLength(lines) == 0;
    assert lines[0..] == lines;
    assert r.current + lines[..0] == r.current;
    assert Runs(lines) == Runs(lines[1..]);
  }

  /** A non-empty line starts a block, and fixes its type, or extends the block being read. */
  lemma ContentLineRest(r: Reader, lines: seq<string>)
    requires |lines| > 0 && lines[0] != ""
    requires |r.current| == 0 ==> r.hint == ""
    ensures var next := Step(r, lines[0]);
      next.closed + Rest(next.current, next.hint, lines[1..]) == r.closed + Rest(r.current, r.hint, lines)
  {
    if |r.current| == 0 {
      assert ':' !in lines[0] ==> HintOf(lines[0]) == r.hint;
      assert Step(r, lines[0]) == Reader([lines[0]], HintOf(lines[0]), r.closed);
      StartRest(lines);
    } else {
      assert Step(r, lines[0]) == Reader(r.current + [lines[0]], r.hint, r.closed);
      ExtendRest(r.current, r.hint, lines);
    }
  }

  lemma StartRest(lines: seq<string>)
    requires |lines| > 0 && lines[0] != ""
    ensures Rest([lines[0]], HintOf(lines[0]), lines[1..]) == Rest([], "", lines)
  {
    var m := RunLength(lines[1..]);
    RunStep(lines);
    ConsSlice(lines, m);
    var n := RunLength(lines);
    assert Split(lines) == Classify([lines[..n]] + Runs(lines[n..]));
    assert ([lines[..n]] + Runs(lines[n..]))[1..] == Runs(lines[n..]);
  }

  lemma ExtendRest(current: seq<string>, hint: string, lines: seq<string>)
    requires |lines| > 0 && lines[0] != "" && |current| > 0
    ensures Rest(current + [lines[0]], hint, lines[1..]) == Rest(current, hint, lines)
  {
    var m := RunLength(lines[1..]);
    RunStep(lines);
    ConsSlice(lines, m);
    assert current + [lines[0]] + lines[1..][..m] == current + ([lines[0]] + lines[1..][..m]);
  }

  lemma ConsSlice<T>(s: seq<T>, m: nat)
    requires m < |s|
    ensures s[..1 + m] == [s[0]] + s[1..][..m]
    ensures s[1 + m..] == s[1..][m..]
  {
  }

  /** A non-empty line extends the run at the front of the input by one. */
  lemma RunStep(lines: seq<string>)
    requires |lines| > 0 && lines[0] != ""
    ensures RunLength(lines) == 1 + RunLength(lines[1..])
    ensures lines[1 + RunLength(lines[1..])..] == lines[1..][RunLength(lines[1..])..]
  {
  }

  // ---------------------------------------------------------------- properties of the split

  /** A block holds at least one line, none of them empty, and takes its type from its first line. */
  predicate WellFormed(b: Block) {
    && |b.lines| > 0
    && (forall i | 0 <= i < |b.lines| :: b.lines[i] != "")
    && b.hint == HintOf(b.lines[0])
  }

  /** A run holds at least one line and none of its lines is empty. */
  predicate IsRun(g: seq<string>) {
    |g| > 0 && forall i | 0 <= i < |g| :: g[i] != ""
  }

  lemma {:induction false} RunsAreRuns(lines: seq<string>)
    ensures forall i | 0 <= i < |Runs(lines)| :: IsRun(Runs(lines)[i])
    decreases |lines|
  {
    if |lines| > 0 {
      if lines[0] == "" {
        RunsAreRuns(lines[1..]);
      } else {
        RunsAreRuns(lines[RunLength(lines)..]);
      }
    }
  }

  lemma {:induction false} ClassifyTypes(groups: seq<seq<string>>)
    requires forall i | 0 <= i < |groups| :: IsRun(groups[i])
    ensures forall i | 0 <= i < |groups| :: WellFormed(Classify(groups)[i])
    decreases |groups|
  {
    if |groups| > 0 {
      ClassifyTypes(groups[1..]);
      forall i | 0 <= i < |groups|
        ensures WellFormed(Classify(groups)[i])
      {
        if i > 0 {
          assert Classify(groups)[i] == Classify(groups[1..])[i - 1];
        }
      }
    }
  }

  /** Every block the reader emits is non-empty, has no empty line and is typed by its first line. */
  lemma BlocksWellFormed(lines: seq<string>)
    ensures forall i | 0 <= i < |Blocks(lines)| :: WellFormed(Blocks(lines)[i])
  {
    RunsAreRuns(lines);
    ClassifyTypes(Runs(lines));
  }

  /** All lines of the groups, one group after another. */
  function Flatten(groups: seq<seq<string>>): seq<string>
    decreases |groups|
  {
    if |groups| == 0 then [] else groups[0] + Flatten(groups[1..])
  }

  /** The input without its empty lines. */
  function NonEmpty(lines: seq<string>): (r: seq<string>)
    ensures forall i | 0 <= i < |r| :: r[i] != ""
    decreases |lines|
  {
    if |lines| == 0 then []
    else if lines[0] == "" then NonEmpty(lines[1..])
    else [lines[0]] + NonEmpty(lines[1..])
  }

  lemma {:induction false} NonEmptyRun(lines: seq<string>, n: nat)
    requires n <= |lines|
    requires forall i | 0 <= i < n :: lines[i] != ""
    ensures NonEmpty(lines) == lines[..n] + NonEmpty(lines[n..])
    decreases n
  {
    if n > 0 {
      NonEmptyRun(lines[1..], n - 1);
      assert lines[1..][n - 1..] == lines[n..];
      assert lines[..n] == [lines[0]] + lines[1..][..n - 1];
    }
  }

  /** No line is lost, reordered or invented: only the empty lines disappear. */
  lemma {:induction false} RunsKeepLines(lines: seq<string>)
    ensures Flatten(Runs(lines)) == NonEmpty(lines)
    decreases |lines|
  {
    if |lines| > 0 {
      if lines[0] == "" {
        RunsKeepLines(lines[1..]);
      } else {
        var n := RunLength(lines);
        RunsKeepLines(lines[n..]);
        NonEmptyRun(lines, n);
        assert ([lines[..n]] + Runs(lines[n..]))[1..] == Runs(lines[n..]);
      }
    }
  }

  /** Concatenating the lines of the emitted blocks gives the input without its empty lines. */
  lemma BlocksKeepLines(lines: seq<string>)
    ensures Flatten(LinesOf(Blocks(lines))) == NonEmpty(lines)
  {
    RunsKeepLines(lines);
    LinesOfClassify(Runs(lines));
  }

  function LinesOf(blocks: seq<Block>): (groups: seq<seq<string>>)
    ensures |groups| == |blocks|
    ensures forall i | 0 <= i < |blocks| :: groups[i] == blocks[i].lines
  {
    seq(|blocks|, i requires 0 <= i < |blocks| => blocks[i].lines)
  }

  lemma LinesOfClassify(groups: seq<seq<string>>)
    ensures LinesOf(Classify(groups)) == groups
  {
  }

  /** Number of maximal runs of non-empty lines: the non-empty lines followed by an empty one or by the end. */
  function RunCount(lines: seq<string>): nat
    decreases |lines|
  {
    if |lines| == 0 then 0
    else (if lines[0] != "" && (|lines| == 1 || lines[1] == "") then 1 else 0) + RunCount(lines[1..])
  }

  lemma {:induction false} RunCountOfRun(lines: seq<string>)
    requires |lines| > 0 && lines[0] != ""
    ensures RunCount(lines) == 1 + RunCount(lines[RunLength(lines)..])
    decreases |lines|
  {
    if |lines| > 1 && lines[1] != "" {
      RunCountOfRun(lines[1..]);
      assert lines[1..][RunLength(lines[1..])..] == lines[RunLength(lines)..];
    }
  }

  lemma {:induction false} RunsCounted(lines: seq<string>)
    ensures |Runs(lines)| == RunCount(lines)
    decreases |lines|
  {
    if |lines| > 0 {
      if lines[0] == "" {
        RunsCounted(lines[1..]);
      } else {
        RunsCounted(lines[RunLength(lines)..]);
        RunCountOfRun(lines);
      }
    }
  }

  /** Runs of empty lines collapse: the reader emits exactly one block per run of non-empty lines. */
  lemma BlockCount(lines: seq<string>)
    ensures |Blocks(lines)| == RunCount(lines)
  {
    RunsCounted(lines);
  }

  /** Empty lines before the first object produce nothing. */
  lemma {:induction false} LeadingEmptyLinesSkipped(blank: seq<string>, lines: seq<string>)
    requires forall i | 0 <= i < |blank| :: blank[i] == ""
    ensures Blocks(blank + lines) == Blocks(lines)
  {
    LeadingEmptyRuns(blank, lines);
  }

  lemma {:induction false} LeadingEmptyRuns(blank: seq<string>, lines: seq<string>)
    requires forall i | 0 <= i < |blank| :: blank[i] == ""
    ensures Runs(blank + lines) == Runs(lines)
    decreases |blank|
  {
    if |blank| > 0 {
      assert (blank + lines)[1..] == blank[1..] + lines;
      LeadingEmptyRuns(blank[1..], lines);
    } else {
      assert blank + lines == lines;
    }
  }

  /** The last run ends with the input's last line when that line is not empty. */
  lemma {:induction false} LastRun(lines: seq<string>)
    requires |lines| > 0 && lines[|lines| - 1] != ""
    ensures |Runs(lines)| > 0
    ensures var last := Runs(lines)[|Runs(lines)| - 1]; |last| > 0 && last[|last| - 1] == lines[|lines| - 1]
    decreases |lines|
  {
    if lines[0] == "" {
      LastRun(lines[1..]);
    } else {
      var n := RunLength(lines);
      var rest := Runs(lines[n..]);
      assert Runs(lines) == [lines[..n]] + rest;
      if n < |lines| {
        LastRun(lines[n..]);
      } else {
        assert rest == [];
      }
    }
  }

  /** The last block is emitted without a closing empty line: it ends with the input's last line. */
  lemma LastBlockFlushed(lines: seq<string>)
    requires |lines| > 0 && lines[|lines| - 1] != ""
    ensures |Blocks(lines)| > 0
    ensures var last := Blocks(lines)[|Blocks(lines)| - 1].lines; |last| > 0 && last[|last| - 1] == lines[|lines| - 1]
  {
    LastRun(lines);
    LastLineKept(Runs(lines), Blocks(lines), lines[|lines| - 1]);
  }

  /** Typing the groups keeps the last line of the last group in place. */
  lemma LastLineKept(groups: seq<seq<string>>, blocks: seq<Block>, line: string)
    requires |groups| > 0 && |groups[|groups| - 1]| > 0
    requires groups[|groups| - 1][|groups[|groups| - 1]| - 1] == line
    requires blocks == Classify(groups)
    ensures |blocks| > 0
    ensures var last := blocks[|blocks| - 1].lines; |last| > 0 && last[|last| - 1] == line
  {
    assert blocks[|blocks| - 1].lines == groups[|groups| - 1];
  }

  // ---------------------------------------------------------------- handing blocks to the parser

  /** Number of blocks whose type the parser knows. */
  function KnownCount(blocks: seq<Block>): nat
    decreases |blocks|
  {
    if |blocks| == 0 then 0 else (if blocks[0].hint in Classes then 1 else 0) + KnownCount(blocks[1..])
  }

  /** The record of one block: none when the parser does not know its type. */
  function RecordOf(b: Block, parseTime: TimeParser): (rs: seq<Record>)
    ensures |rs| == if b.hint in Classes then 1 else 0
  {
    match ParseObject(b.hint, b.lines, parseTime)
    case Some(r) => [r]
    case None => []
  }

  /** The records of the known blocks, in block order; a block of unknown type yields nothing. */
  function Records(blocks: seq<Block>, parseTime: TimeParser): (rs: seq<Record>)
    ensures |rs| == KnownCount(blocks)
    decreases |blocks|
  {
    if |blocks| == 0 then [] else RecordOf(blocks[0], parseTime) + Records(blocks[1..], parseTime)
  }

  /** The parser's calls for each block in turn, stopping at the first error. */
  function Deliver<S>(blocks: seq<Block>, sink: S, save: Sink<S>, parseTime: TimeParser): (r: Saved<S>)
    ensures KnownCount(blocks) == 0 ==> r == Saved(sink, None)
    decreases |blocks|
  {
    if |blocks| == 0 then Saved(sink, None)
    else
      var s := ParseAndSave(blocks[0].hint, blocks[0].lines, sink, save, parseTime);
      if s.err.Some? then s else Deliver(blocks[1..], s.sink, save, parseTime)
  }

  /** Handing one block over is saving its record, if it has one. */
  lemma SaveOneBlock<S>(b: Block, sink: S, save: Sink<S>, parseTime: TimeParser)
    ensures SaveAll(RecordOf(b, parseTime), sink, save) == ParseAndSave(b.hint, b.lines, sink, save, parseTime)
  {
    match ParseObject(b.hint, b.lines, parseTime)
    case None =>
    case Some(r) =>
      var s := save(sink, r);
      assert SaveAll([r], sink, save) == if s.err.Some? then s else SaveAll([], s.sink, save);
  }

  /** Handing blocks over is saving their records in order: unknown blocks are skipped, the first error stops. */
  lemma {:induction false} DeliverSavesRecords<S>(blocks: seq<Block>, sink: S, save: Sink<S>, parseTime: TimeParser)
    ensures Deliver(blocks, sink, save, parseTime) == SaveAll(Records(blocks, parseTime), sink, save)
    decreases |blocks|
  {
    if |blocks| > 0 {
      var here := RecordOf(blocks[0], parseTime);
      var rest := Records(blocks[1..], parseTime);
      var s := ParseAndSave(blocks[0].hint, blocks[0].lines, sink, save, parseTime);
      SaveOneBlock(blocks[0], sink, save, parseTime);
      SaveAllAppend(here, rest, sink, save);
      if s.err.None? {
        DeliverSavesRecords(blocks[1..], s.sink, save, parseTime);
      }
    }
  }

  /**
   * `parseFromReader` over the lines the scanner produced before it stopped, `scanErr` being
   * the scanner's error (an over-long line, a failed read) or `None` at a clean end of input.
   * The pending block is saved before the scanner's error is returned.
   */
  function ParseFromReader<S>(lines: seq<string>, scanErr: Option<Error>, sink: S, save: Sink<S>, parseTime: TimeParser): (r: Saved<S>)
    ensures r.err == scanErr || (r.err.Some? && r.err.value.ObjectFailed?)
    ensures scanErr.Some? ==> r.err.Some?
    ensures KnownCount(Split(lines)) == 0 ==> r == Saved(sink, scanErr)
  {
    var s := Deliver(Blocks(lines), sink, save, parseTime);
    if s.err.Some? then Saved(s.sink, Some(ObjectFailed(s.err.value))) else Saved(s.sink, scanErr)
  }

  /**
   * The whole reader in terms of the reference split: the records of the maximal runs of
   * non-empty lines are saved in order; a storage error ends the reading, wrapped; otherwise
   * the scanner's own outcome is returned.
   */
  lemma ParseFromReaderSaves<S>(lines: seq<string>, scanErr: Option<Error>, sink: S, save: Sink<S>, parseTime: TimeParser)
    ensures var s := SaveAll(Records(Split(lines), parseTime), sink, save);
      ParseFromReader(lines, scanErr, sink, save, parseTime) ==
        if s.err.Some? then Saved(s.sink, Some(ObjectFailed(s.err.value))) else Saved(s.sink, scanErr)
  {
    DeliverSavesRecords(Blocks(lines), sink, save, parseTime);
  }
}

=== FILE: wrappers.dfy ===
/** Optional values and results with an error, used for Go's `(value, error)` returns. */
module Wrappers {

  datatype Option<+T> = None | Some(value: T)

  datatype Result<+R, +E> = Success(value: R) | Failure(error: E)

  /** The last element of `xs`, or `default` when `xs` is empty. */
  function LastOr<T>(xs: seq<T>, default: T): (r: T)
    ensures |xs| == 0 ==> r == default
    ensures |xs| > 0 ==> r == xs[|xs| - 1]
  {
    if |xs| == 0 then default else xs[|xs| - 1]
  }

  /** Taking the last of a concatenation: the second part wins unless it is empty. */
  lemma LastOrAppend<T>(xs: seq<T>, ys: seq<T>, default: T)
    ensures LastOr(xs + ys, default) == LastOr(ys, LastOr(xs, default))
  {
  }

  /** The payloads of the `Some` results of `f` over `xs`, in order. */
  function Collect<T, U>(xs: seq<T>, f: T -> Option<U>): (r: seq<U>)
    ensures |r| <= |xs|
    decreases |xs|
  {
    if |xs| == 0 then []
    else
      match f(xs[0])
      case Some(u) => [u] + Collect(xs[1..], f)
      case None => Collect(xs[1..], f)
  }

  lemma {:induction false} CollectAppend<T, U>(xs: seq<T>, ys: seq<T>, f: T -> Option<U>)
    ensures Collect(xs + ys, f) == Collect(xs, f) + Collect(ys, f)
    decreases |xs|
  {
    if |xs| == 0 {
      assert xs + ys == ys;
    } else {
      assert (xs + ys)[1..] == xs[1..] + ys;
      CollectAppend(xs[1..], ys, f);
    }
  }

  lemma AppendAssoc<T>(a: seq<T>, b: seq<T>, c: seq<T>)
    ensures a + b + c == a + (b + c)
  {
  }
}
